=== FILE: README.md ===
# GH-Mind, place list and notification bell — a Dafny model

This project models the client-side decision logic of a small "what to do
here" web app. The app lists places, shows posts about a place, and runs a
suggestion card called GH-Mind. The user says they are *hungry*, *bored*
or unsure (*idk*), and the card proposes one post at a time.

The model covers four parts of the browser code:

- **GH-Mind** (js/place.js):
  - how a post is classified against a mode
  - how the next suggestion is picked: eligibility, topic diversity for *idk*, a score-ordered shortlist of eight, and a random pick from it
  - how the session state (shown ids, last topic, current card) evolves under the mode buttons, the yes/no/skip answers and the thumbs
  - the small pieces around the card and the post list: time-of-day bucket, mode label, topic and type badges, the new-post guard, the type filter and its hint, and the `suggestion_events` payload
- **The place list** (js/home.js):
  - display text and case/space-insensitive sort key of a place
  - the sorted insertion into the list, including the "No places yet" placeholder check
  - building the list from the loaded places
  - normalisation of the add-place form
- **HTML escaping** (js/utils.js): `escapeHtml`. The copies at the end of js/home.js (196-203) and js/notifications.js (140-147) are character-for-character the same function, so one definition, `Escape.EscapeHtml`, stands for all three.
- **The notification bell** (js/notifications.js):
  - the unread badge
  - the NEW pill
  - which ids are marked read when the list opens, and what that update leaves behind

Modelling choices:

- **Absent fields.** Fields the code only reads through `x || default` are plain strings, with "" standing for null or missing. This covers type, topic, title, body, mode, last topic, region, country and `read_at`. `score` is read through `?? 0`, so it is an `Option<int>`. A mode of "" means no mode has been chosen yet.
- **External inputs.** `Math.random()` becomes a `roll: nat` parameter; the chosen index is `roll % n`, and every shortlist index can be reached. The clock's hour is a parameter. So are `crypto.randomUUID()`, the signed-in state and the query replies.
- **Sorting.** `Array.prototype.sort` with a comparator is modelled as a stable insertion sort, descending by `score ?? 0`.
- **Trim and lowercasing.** `trim()` uses the ECMAScript white-space and line-terminator set. `toLowerCase()` is modelled on ASCII letters.
- **String order.** JavaScript's `>` on strings is modelled as lexicographic order on characters (`Text.LexLess`).

Module layout:

| file | module | contents |
|---|---|---|
| wrappers.dfy | Wrappers | `Option`, `Result` |
| text.dfy | Text | trim, lower-case, substring search, string order, decimal rendering |
| escape.dfy | Escape | `escapeHtml` and its inverse |
| post_model.dfy | PostModel | posts and the GH-Mind session record |
| mode_classifier.dfy | ModeClassifier | `matchesMode` |
| ranking.dfy | Ranking | score ordering and the shortlist of eight |
| selector.dfy | Selector | `pickNextSuggestion` |
| suggestion_session.dfy | SuggestionSession | `showNextSuggestion` and the card's event handlers |
| place_page.dfy | PlacePage | labels, badges, post guard, filter, event payload |
| place_list.dfy | PlaceList | the home page's place list and add-place form |
| notifications.dfy | Notifications | the bell |

## Model

| member | source | states |
|---|---|---|
| ModeClassifier.HungryMatch | js/place.js:144-147 | In hungry mode, a non-empty lower-cased topic alone decides: the post matches iff the topic is food_drink or nightlife. Without a topic, it matches iff one of the fifteen food words occurs in the lower-cased "title body" text. |
| ModeClassifier.BoredMatch | js/place.js:149-161 | In bored mode, a non-empty topic matches iff it is one of the seven bored topics. Without a topic, it matches iff the lower-cased type (default "general") is event, general or advice. |
| ModeClassifier.UntopicedAlertNeverBored | js/place.js:149-161 | An alert without a topic is never offered to a bored user. |
| ModeClassifier.OtherModesAcceptAll | js/place.js:163 | Every mode other than hungry and bored accepts every post. |
| ModeClassifier.TopicDecides | js/place.js:144-160 | Two posts whose topics agree up to case are classified alike in every mode, whatever their type, title and body. |
| ModeClassifier.NightlifeSuitsBoth | js/place.js:144-161 | A nightlife post matches both hungry and bored. |
| ModeClassifier.KeywordFallbackMatchesInsideWords | js/place.js:123-146 | The food-word test is a substring test: an untopiced "Great hike" post counts as food, because "great" contains "eat". |
| Selector.Eligible | js/place.js:167-170 | Keeps exactly the posts that have an id, match the mode and have not been shown in this mode. |
| Selector.EligibleAppend | js/place.js:167-170 | The filters keep the posts in their list order, duplicates included: filtering a concatenation is concatenating the filtered parts. |
| Selector.OtherTopicsAppend | js/place.js:174-176 | The topic filter likewise keeps list order and duplicates. |
| Selector.Candidates | js/place.js:166-178 | Outside the idk rule, the pool is exactly the eligible posts. Under idk with a last topic, it is exactly the eligible posts on another topic when there is one, and all eligible posts otherwise. It is empty iff no post is eligible. |
| Selector.Pick | js/place.js:166-185 | Returns nothing iff no post is eligible. A pick is an eligible post from the shortlist, with fewer than eight candidates scoring strictly above it. Under idk it avoids repeating the last topic when possible. |
| Selector.RollIndex | js/place.js:184 | The random index is within the shortlist; every index is produced by some roll. |
| Selector.EveryShortlistPostReachable | js/place.js:183-184 | Each of the up to eight shortlisted posts is the pick for some roll. |
| Selector.TopDominatesRest | js/place.js:182-183 | No candidate left off the shortlist scores above one on it. |
| Selector.HungryExample | js/place.js:144-185 | Given a food_drink post and a history post, a hungry user is offered the food post even when the history post scores higher. |
| Selector.DiversityExample | js/place.js:172-178 | After an events suggestion, idk offers a history post over a higher-scoring events post. |
| Ranking.InsertByScore | js/place.js:182 | Inserting into a list sorted by descending score keeps it sorted and adds exactly the new post. |
| Ranking.SortByScore | js/place.js:182 | The result is sorted by descending `score ?? 0` and is a permutation of the candidates. |
| Ranking.Shortlist | js/place.js:183 | The shortlist has min(8, n) posts. When the input is sorted by descending score, every shortlisted post scores at least as high as every post left out. |
| Ranking.CountAboveSort | js/place.js:182 | Sorting does not change how many posts score above a value. |
| Ranking.ShortlistIsTopEight | js/place.js:182-183 | Every shortlisted post comes from the candidates, and fewer than eight candidates score strictly above it. |
| SuggestionSession.ShowNext | js/place.js:187-208 | With no mode, nothing changes. Otherwise the picker's choice is displayed, and nothing is displayed iff no post is eligible. With no pick, the card clears and the shown set and last topic stay. With a pick, the post becomes current, its id joins the shown set, and its topic (default "everyday") becomes the last topic. |
| SuggestionSession.Step | js/place.js:543-592 | A mode button sets the mode and restarts the shown set and last topic; with a non-empty mode it displays something iff some post is eligible with nothing shown, and otherwise clears the card. Answers and thumbs without a current card change nothing. A thumb adds the current card's id to the shown set before picking. Answers, thumbs and reloads keep the mode and only grow the shown set. In a mode, they display something iff some post is eligible against the shown set (with the thumbed id added), and otherwise clear the card. In a mode, what is displayed is exactly the picker's choice from the event's posts. The picker sees the new mode with nothing shown, the current session, or the session with the thumbed id added. So anything displayed is one of the event's posts and suits the mode. It was not shown before, becomes current and sets the last topic. |
| SuggestionSession.NoRepeatWithinMode | js/place.js:166-208 | Within one mode, no post id is suggested twice, and every suggested id is in the shown set. |
| SuggestionSession.NoRepeatAfterModeSwitch | js/place.js:545-548 | After a mode button, the suggestions that follow until the next mode button are all distinct. |
| SuggestionSession.NothingBeforeModeChosen | js/place.js:187-189 | Until a mode is chosen, no event shows anything or changes the session. |
| SuggestionSession.StepKeepsCurrentShown | js/place.js:576-592 | If the current card's id is in the shown set, it still is after any step, as long as the mode button carries a non-empty mode. |
| SuggestionSession.EmptyModeButtonBreaksInvariant | js/place.js:545-549 | A mode button with an empty mode clears the shown set but keeps the old card current, so the card is then absent from the shown set. |
| SuggestionSession.ThumbMovesOnLikeAnswer | js/place.js:554-592 | Once the current card's id is in the shown set, a thumb moves the card on exactly like yes/no/skip. |
| PlacePage.TimeBucket | js/place.js:74-80 | The bucket is morning iff the hour is in 5..11, afternoon iff 12..16, evening iff 17..21, and late otherwise. |
| PlacePage.TimeBucketMatchesTable | js/place.js:74-80 | The bucket agrees with a 24-entry hour table. |
| PlacePage.ModeLabel | js/place.js:82-86 | bored and hungry are kept as given, and every other mode, "idk" and none included, is labelled "unsure". "unsure" is only shown for modes that accept every post. |
| PlacePage.DiversityKeysOnIdkNotUnsure | js/place.js:82-86 | "idk" and "unsure" share a label, but only idk triggers the topic-diversity rule. |
| PlacePage.TopicBadge | js/place.js:482-496 | A known lower-cased topic gets its own badge; anything else, including the empty topic, gets EVERYDAY. |
| PlacePage.TypeBadge | js/place.js:498-508 | A known lower-cased type gets its own badge; anything else gets GENERAL. |
| PlacePage.TopicBadgesDistinct | js/place.js:484-493 | Distinct topics have distinct badges. |
| PlacePage.TypeBadgesDistinct | js/place.js:500-505 | Distinct types have distinct badges. |
| PlacePage.BadgesCoverAllowedValues | js/place.js:4-14 | The badge maps' keys are exactly the types and topics the post form accepts. |
| PlacePage.ValidatePost | js/place.js:308-333 | The post is accepted iff signed in, the type and topic are allowed, and the trimmed title is non-empty. The four errors (not signed in, invalid type, invalid topic, title required) come in the source's order. An accepted draft carries the chosen type and topic (defaults for blank selects), the trimmed non-empty title, and the trimmed body, which is null when blank. |
| PlacePage.BlankSelectsDefault | js/place.js:313-318 | Blank selects fall back to general and everyday, and the post passes. |
| PlacePage.ValidatePostIdempotent | js/place.js:313-333 | An accepted draft, submitted again as it is, is accepted unchanged. |
| PlacePage.FilterPosts | js/place.js:436-439 | "all" keeps every post. Otherwise a post is kept iff its type (default "general") equals the filter. |
| PlacePage.FilterPostsAppend | js/place.js:436-439 | Filtering keeps the page's order: it distributes over concatenation. |
| PlacePage.TypeFiltersPartition | js/place.js:436-439 | The four type filters split the posts that have an allowed type. |
| PlacePage.FilterHint | js/place.js:441-446 | Under "all" the hint is "N total"; otherwise it is "K of N shown". K is the number of posts the filter keeps and N the number loaded, each written as `String(n)` writes it: digits without a leading zero that read back as the count. |
| PlacePage.LogPayload | js/place.js:101-114 | No payload iff nobody is signed in. Otherwise: the user's id; the place id; the mode, or "idk" when none is chosen; suggestion type "post"; the action's name; the suggestion id only when the post has one; the selected distance band, or null when none is selected; and the time bucket of the hour. |
| PlacePage.ActionNamesDistinct | js/place.js:554-592 | Distinct actions are logged under distinct names. |
| PlaceList.DisplayText | js/home.js:85-89 | The text starts with the name. ", region" follows iff a region is set, and " (country)" iff a country is set. |
| PlaceList.SortKeyShape | js/home.js:91-96 | The key starts with the trimmed, lower-cased name, followed by a "\|". |
| PlaceList.SortKeyIgnoresCaseAndSpace | js/home.js:91-96 | Places whose three fields agree after trim and lower-case have the same key. |
| PlaceList.NormalisedPlaceSameKey | js/home.js:91-96 | Trimming and lower-casing a place's fields does not change its key. |
| PlaceList.SortKeyOrdersByName | js/home.js:91-96 | When one normalised name precedes the other at a differing character, the keys are ordered the same way, whatever the region and country. |
| PlaceList.ExtendedNameSortsFirst | js/home.js:91-96 | A name extended by any character below "\|" (space, digits, letters) sorts before the bare name. |
| PlaceList.InsertRowShape | js/home.js:116-120 | The row goes right before the first row whose key is greater, or at the end; the rest keep their order. |
| PlaceList.InsertRowSorted | js/home.js:116-120 | Inserting into a key-sorted list keeps it sorted. |
| PlaceList.InsertRowStable | js/home.js:116-120 | A new row goes after every existing row with an equal key. |
| PlaceList.InsertPlaceSortedAsWritten | js/home.js:108-121 | The list is cleared when it has a single row whose text contains "No places yet", and then the new row is inserted. |
| PlaceList.AsWrittenDropsLonePlace | js/home.js:108-110 | As written, a single place whose text contains "No places yet" is dropped when another place is added. The corrected insertion keeps it. |
| PlaceList.InsertPlaceSorted | js/home.js:108-121 | Corrected insertion. The lone status placeholder is replaced by the new row. Any other list keeps every row and gains exactly the new row, as a multiset. Place rows are always kept, and a sorted list stays sorted. |
| PlaceList.PlaceholderIsCleared | js/home.js:108-110 | Adding a place to the "No places yet." list leaves just that place. |
| PlaceList.BuildListSorted | js/home.js:81-82 | With the corrected insertion, inserting the loaded places one by one into a sorted list of place rows (the emptied list included) keeps it sorted and adds exactly one row per loaded place. |
| PlaceList.AsWrittenLoadAgrees | js/home.js:81-82 | When no loaded place's text contains "No places yet", `loadPlaces` as written builds the same list as the corrected load. |
| PlaceList.LoadAsWrittenSorted | js/home.js:61-82 | Under that condition, the load as written shows the "No places yet." placeholder exactly when the query returns no places. Otherwise the list ends up sorted, holds only place rows, and has exactly one row per loaded place. |
| PlaceList.LoadDropsFirstPlace | js/home.js:76-82 | As written, loading a first place whose text contains "No places yet" and then another place leaves one row, where the corrected load keeps two. |
| PlaceList.AddPlace | js/home.js:138-158 | Signed out gives "Please log in"; signed in with a blank trimmed name gives "Name is required"; otherwise the place is accepted. The payload has the trimmed name, region and country trimmed (null when blank), provider "user", and the generated id as the provider place id. |
| PlaceList.AddPlaceIdempotent | js/home.js:143-158 | Submitting the stored fields again yields the same payload. |
| Escape.EscapeHtml | js/utils.js:5-12 | The result contains none of `< > " '`. It equals the input iff the input has none of `& < > " '`, and is longer otherwise. It is the per-character entity expansion. |
| Escape.EscapeHtmlIsPerCharacter | js/utils.js:5-12 | The five replace passes in sequence equal one per-character entity expansion. |
| Escape.EscapeRoundTrip | js/utils.js:5-12 | Decoding the five entities recovers the original text. |
| Escape.EscapePrepend | js/utils.js:5-12 | Escaping works character by character: escaping `c` followed by `s` is `c`'s entity followed by escaped `s`. |
| Escape.NoDoubleEscape | js/utils.js:7 | "&" is replaced first, so the entities the later passes insert are not escaped again. |
| Notifications.UnreadIds | js/notifications.js:104 | An id is listed iff some fetched row with that id is unread. The list is empty iff no row is unread. |
| Notifications.UnreadIdsAppend | js/notifications.js:104 | Ids keep the order in which the rows were fetched. |
| Notifications.UnreadIdsCount | js/notifications.js:104 | One id per unread row. |
| Notifications.NewPill | js/notifications.js:98 | A row shows NEW iff its `read_at` is empty. |
| Notifications.NewPillsAreUnreadIds | js/notifications.js:98-104 | Every row showing NEW is among the ids marked read. |
| Notifications.MarkReadRequest | js/notifications.js:104-111 | An update is sent iff some row is unread. It names exactly the unread ids, and the list is non-empty. |
| Notifications.ApplyMarkRead | js/notifications.js:106-110 | Listed rows become read. Rows read earlier keep their time. Unlisted rows are unchanged. |
| Notifications.MarkReadLeavesNothingUnread | js/notifications.js:104-110 | After the update no fetched row is unread, so reopening sends nothing. |
| Notifications.BadgeFor | js/notifications.js:42-48 | The badge is shown iff the count is present and positive. Its text is digits without a leading zero that read back as the count. |
| Notifications.Refresh | js/notifications.js:20-49 | Signed out hides the button and the badge. A failed count query shows the button and leaves the badge as it was. A count sets the badge from the count. |
| Notifications.LatestCountWins | js/notifications.js:42-48 | After two successful polls, the badge depends only on the second. |
| Notifications.BadgeNeverShowsZero | js/notifications.js:42-48 | The badge never shows "0", and a zero or negative count hides it. |

## Left out

- **Not modelled:**
  - Supabase queries and inserts, the DOM, `async`/`await` ordering, `localStorage`, `setInterval` polling and the auth-state listeners. Their results enter the model as parameters.
  - The `vote()` call inside the thumbs handlers. Its database write is not modelled; the handler then picks from the list as reloaded by the vote, which is the thumb event's own `posts`.
  - `fmtTime`, the notification title's "Alert" default, and the rest of the markup built around escaped text. These are rendering only.
  - The "Loading…" row shown while the places query runs. The query's error row is part of `PlaceList.LoadPlaces`, but no property is stated about its text.
  - The "My Places" list (js/home.js:12-59), sorted with `localeCompare`, which depends on the browser's locale collation.
- **Numbers:** scores are whole numbers; fractional scores from the database are not modelled.
- **Absent values:**
  - `String(str)` in `escapeHtml` turns null into "null" and numbers into their digits; the model escapes strings only.
  - A place whose name is null displays as "null" in js/home.js:86; the model uses "".
  - Posts that are themselves null (`p?.id`) are not modelled; a post without an id is.
- **Strings:**
  - `toLowerCase()` is modelled for ASCII letters only.
  - String comparison is on characters, not UTF-16 code units; the two differ only outside the Basic Multilingual Plane.
- Ranking.SortByScore: the sort is stable, as `Array.prototype.sort` is, but the contract states order and permutation only, not stability.
- PlacePage.TopicBadge: keys inherited from `Object.prototype` (such as "constructor") would find a property in the source's object literal; the model treats every string that is not a listed key as unknown.
- PlacePage.TypeBadge: the same as TopicBadge for inherited property names.
- Selector.HungryExample: stated for any two posts with the example's topics and score order, rather than for one literal pair of posts.
- Selector.DiversityExample: stated for any two posts with the example's topics and score order, rather than for one literal pair of posts.

## Findings

| source | as written | input that shows it | evidently intended | confidence | as-written member | corrected member |
|---|---|---|---|---|---|---|
| js/home.js:108-110 | The list is cleared whenever it has exactly one child whose text contains "No places yet". | A single place named "No places yet" is in the list; adding any other place through the form removes it. The same happens during the initial load when the first fetched place has that text: two fetched places leave one row. | Clear only the status placeholder row. | low; not executed | PlaceList.InsertPlaceSortedAsWritten, PlaceList.AsWrittenDropsLonePlace, PlaceList.LoadDropsFirstPlace | PlaceList.InsertPlaceSorted, PlaceList.BuildListSorted |

=== FILE: escape.dfy ===
/** `escapeHtml` from js/utils.js (copied verbatim in js/home.js and
    js/notifications.js): five `replaceAll` passes, `&` first. */
module Escape {

  /** `s.replaceAll(c, e)` for a one-character pattern. */
  function ReplaceChar(s: string, c: char, e: string): (r: string)
    ensures c !in e ==> c !in r
    ensures c !in s ==> r == s
    decreases |s|
  {
    if |s| == 0 then ""
    else (if s[0] == c then e else [s[0]]) + ReplaceChar(s[1..], c, e)
  }

  /** `escapeHtml`: the five passes of `Chain`. */
  function EscapeHtml(s: string): (r: string)
    ensures r == EscapeEach(s)
    ensures forall i :: 0 <= i < |r| ==> !IsMarkup(r[i])
    ensures |r| >= |s|
    ensures r == s <==> forall i :: 0 <= i < |s| ==> !IsSpecial(s[i])
    ensures (exists i :: 0 <= i < |s| && IsSpecial(s[i])) ==> |r| > |s|
  {
    var r := Chain(s);
    EscapeHtmlIsPerCharacter(s);
    EscapeEachProperties(s);
    r
  }

  /** The four characters that can open or close markup or an attribute value. */
  predicate IsMarkup(c: char) {
    c == '<' || c == '>' || c == '"' || c == '\''
  }

  /** The five characters `escapeHtml` rewrites. */
  predicate IsSpecial(c: char) {
    c == '&' || IsMarkup(c)
  }

  /** The entity each character becomes; every other character stays itself. */
  function Entity(c: char): (r: string)
    ensures IsSpecial(c) ==> |r| > 1 && r[0] == '&'
    ensures !IsSpecial(c) ==> r == [c]
  {
    match c
    case '&' => "&amp;"
    case '<' => "&lt;"
    case '>' => "&gt;"
    case '"' => "&quot;"
    case '\'' => "&#039;"
    case _ => [c]
  }

  /** Reference definition: each character replaced by its entity, in one pass. */
  function EscapeEach(s: string): string
    decreases |s|
  {
    if |s| == 0 then "" else Entity(s[0]) + EscapeEach(s[1..])
  }

  lemma {:induction false} ReplaceCharAppend(a: string, b: string, c: char, e: string)
    ensures ReplaceChar(a + b, c, e) == ReplaceChar(a, c, e) + ReplaceChar(b, c, e)
    decreases |a|
  {
    if |a| > 0 {
      assert (a + b)[1..] == a[1..] + b;
      ReplaceCharAppend(a[1..], b, c, e);
    } else {
      assert a + b == b;
    }
  }

  /** The five passes in the order the source applies them. */
  function Chain(s: string): string {
    ReplaceChar(ReplaceChar(ReplaceChar(ReplaceChar(ReplaceChar(
      s, '&', "&amp;"), '<', "&lt;"), '>', "&gt;"), '"', "&quot;"), '\'', "&#039;")
  }

  lemma ChainAppend(a: string, b: string)
    ensures Chain(a + b) == Chain(a) + Chain(b)
  {
    var a1, b1 := ReplaceChar(a, '&', "&amp;"), ReplaceChar(b, '&', "&amp;");
    ReplaceCharAppend(a, b, '&', "&amp;");
    var a2, b2 := ReplaceChar(a1, '<', "&lt;"), ReplaceChar(b1, '<', "&lt;");
    ReplaceCharAppend(a1, b1, '<', "&lt;");
    var a3, b3 := ReplaceChar(a2, '>', "&gt;"), ReplaceChar(b2, '>', "&gt;");
    ReplaceCharAppend(a2, b2, '>', "&gt;");
    var a4, b4 := ReplaceChar(a3, '"', "&quot;"), ReplaceChar(b3, '"', "&quot;");
    ReplaceCharAppend(a3, b3, '"', "&quot;");
    ReplaceCharAppend(a4, b4, '\'', "&#039;");
  }

  lemma ReplaceOneChar(x: char, c: char, e: string)
    ensures ReplaceChar([x], c, e) == if x == c then e else [x]
  {
    assert [x][1..] == "";
  }

  /** Because `&` goes first and no entity contains a later pattern, the
      chain on one character yields exactly that character's entity. */
  lemma ChainOneChar(c: char)
    ensures Chain([c]) == Entity(c)
  {
    if c == '&' {
      ReplaceOneChar(c, '&', "&amp;");
      assert '<' !in "&amp;" && '>' !in "&amp;" && '"' !in "&amp;" && '\'' !in "&amp;";
    } else if c == '<' {
      ReplaceOneChar(c, '<', "&lt;");
      assert '>' !in "&lt;" && '"' !in "&lt;" && '\'' !in "&lt;";
    } else if c == '>' {
      ReplaceOneChar(c, '>', "&gt;");
      assert '"' !in "&gt;" && '\'' !in "&gt;";
    } else if c == '"' {
      ReplaceOneChar(c, '"', "&quot;");
      assert '\'' !in "&quot;";
    } else if c == '\'' {
      ReplaceOneChar(c, '\'', "&#039;");
    }
  }

  lemma {:induction false} EscapeHtmlIsPerCharacter(s: string)
    ensures Chain(s) == EscapeEach(s)
    decreases |s|
  {
    if |s| == 0 {
    } else {
      assert s == [s[0]] + s[1..];
      ChainAppend([s[0]], s[1..]);
      ChainOneChar(s[0]);
      EscapeHtmlIsPerCharacter(s[1..]);
    }
  }

  lemma {:induction false} EscapeEachProperties(s: string)
    ensures forall i :: 0 <= i < |EscapeEach(s)| ==> !IsMarkup(EscapeEach(s)[i])
    ensures |EscapeEach(s)| >= |s|
    ensures (forall i :: 0 <= i < |s| ==> !IsSpecial(s[i])) ==> EscapeEach(s) == s
    ensures (exists i :: 0 <= i < |s| && IsSpecial(s[i])) ==> |EscapeEach(s)| > |s|
    decreases |s|
  {
    if |s| > 0 {
      EscapeEachProperties(s[1..]);
      var r := EscapeEach(s);
      var e := Entity(s[0]);
      assert r == e + EscapeEach(s[1..]);
      forall i | 0 <= i < |r|
        ensures !IsMarkup(r[i])
      {
        if i >= |e| {
          assert r[i] == EscapeEach(s[1..])[i - |e|];
        }
      }
      if exists i :: 0 <= i < |s| && IsSpecial(s[i]) {
        var i :| 0 <= i < |s| && IsSpecial(s[i]);
        if i > 0 {
          assert IsSpecial(s[1..][i - 1]);
        }
      }
      if forall i :: 0 <= i < |s| ==> !IsSpecial(s[i]) {
        assert forall i :: 0 <= i < |s[1..]| ==> !IsSpecial(s[1..][i]);
        assert s == [s[0]] + s[1..];
      }
    }
  }

  /** Decodes the five entities `escapeHtml` produces; any other character is
      kept as it is. */
  function Unescape(t: string): string
    decreases |t|
  {
    if |t| == 0 then ""
    else if |t| >= 5 && t[..5] == "&amp;" then "&" + Unescape(t[5..])
    else if |t| >= 4 && t[..4] == "&lt;" then "<" + Unescape(t[4..])
    else if |t| >= 4 && t[..4] == "&gt;" then ">" + Unescape(t[4..])
    else if |t| >= 6 && t[..6] == "&quot;" then "\"" + Unescape(t[6..])
    else if |t| >= 6 && t[..6] == "&#039;" then "'" + Unescape(t[6..])
    else [t[0]] + Unescape(t[1..])
  }

  lemma UnescapeEntity(c: char, rest: string)
    ensures Unescape(Entity(c) + rest) == [c] + Unescape(rest)
  {
    var e := Entity(c);
    var t := e + rest;
    assert t[|e|..] == rest;
    if !IsSpecial(c) {
      assert t[0] == c && t[1..] == rest;
      assert |t| >= 4 ==> t[..4][0] == c;
      assert |t| >= 5 ==> t[..5][0] == c;
      assert |t| >= 6 ==> t[..6][0] == c;
    } else if c == '&' {
      assert t[..5] == "&amp;";
    } else if c == '<' {
      assert t[..4] == "&lt;";
      assert |t| >= 5 ==> t[..5][1] == 'l';
    } else if c == '>' {
      assert t[..4] == "&gt;";
      assert t[..4] != "&lt;";
      assert |t| >= 5 ==> t[..5][1] == 'g';
    } else if c == '"' {
      assert t[..6] == "&quot;";
      assert t[..4][1] == 'q' && t[..5][1] == 'q';
    } else {
      assert t[..6] == "&#039;";
      assert t[..4][1] == '#' && t[..5][1] == '#' && t[..6] != "&quot;";
    }
  }

  /** The per-character expansion decodes back to its input. */
  lemma {:induction false} EscapeEachRoundTrip(s: string)
    ensures Unescape(EscapeEach(s)) == s
    decreases |s|
  {
    if |s| > 0 {
      EscapeEachRoundTrip(s[1..]);
      assert EscapeEach(s) == Entity(s[0]) + EscapeEach(s[1..]);
      UnescapeEntity(s[0], EscapeEach(s[1..]));
      assert s == [s[0]] + s[1..];
    }
  }

  /** No information is lost: the escaped text decodes back to the input. */
  lemma EscapeRoundTrip(s: string)
    ensures Unescape(EscapeHtml(s)) == s
  {
    EscapeEachRoundTrip(s);
  }

  /** Escaping works character by character from the front. */
  lemma EscapePrepend(c: char, s: string)
    ensures EscapeHtml([c] + s) == Entity(c) + EscapeHtml(s)
  {
    var t := [c] + s;
    assert t[0] == c && t[1..] == s;
  }

  /** `&` is replaced before the other characters, so a single character
      comes out as its own entity (`<` as `&lt;`, never `&amp;lt;`), while
      an entity already present in the input is escaped again. */
  lemma NoDoubleEscape(c: char, s: string)
    ensures EscapeHtml([c]) == Entity(c)
    ensures EscapeHtml("&" + s) == "&amp;" + EscapeHtml(s)
  {
    EscapePrepend(c, "");
    assert [c] + "" == [c];
    EscapePrepend('&', s);
  }
}

=== FILE: mode_classifier.dfy ===
/** `matchesMode` from js/place.js: whether a post suits the mode the user
    picked ("hungry", "bored", or anything else, such as "idk"). */
module ModeClassifier {
  import opened Wrappers
  import opened Text
  import opened PostModel

  /** The keyword list used when a post has no topic. */
  const FoodWords: seq<string> := [
    "eat", "food", "restaurant", "pizza", "taco", "coffee", "brunch", "dinner",
    "lunch", "breakfast", "bar", "pub", "sushi", "bbq", "burger"]

  /** Topics that suit the "bored" mode. */
  const BoredTopics: seq<string> := [
    "events", "outdoors", "attractions", "everyday", "history", "legends", "nightlife"]

  /** `(post.type || "general").toLowerCase()`. */
  function NormalType(p: Post): string {
    Lower(if p.postType != "" then p.postType else "general")
  }

  /** `(post.topic || "").toLowerCase()`. */
  function NormalTopic(p: Post): string {
    Lower(p.topic)
  }

  /** `` `${title || ""} ${body || ""}`.toLowerCase() ``. */
  function SearchText(p: Post): string {
    Lower(p.title + " " + p.body)
  }

  predicate MentionsFood(p: Post) {
    exists i | 0 <= i < |FoodWords| :: Contains(SearchText(p), FoodWords[i])
  }

  predicate MatchesMode(p: Post, mode: string) {
    if mode == "hungry" then
      if NormalTopic(p) != "" then NormalTopic(p) == "food_drink" || NormalTopic(p) == "nightlife"
      else MentionsFood(p)
    else if mode == "bored" then
      if NormalTopic(p) != "" then NormalTopic(p) in BoredTopics
      else NormalType(p) == "event" || NormalType(p) == "general" || NormalType(p) == "advice"
    else true
  }

  /** Hungry mode: a topic, when present, decides alone; otherwise one of the
      fifteen food words must occur in the lower-cased title and body. */
  lemma HungryMatch(p: Post)
    ensures NormalTopic(p) != "" ==>
      (MatchesMode(p, "hungry") <==> NormalTopic(p) in {"food_drink", "nightlife"})
    ensures NormalTopic(p) == "" ==>
      (MatchesMode(p, "hungry") <==> exists w :: w in FoodWords && Contains(SearchText(p), w))
  {
    if NormalTopic(p) == "" && (exists w :: w in FoodWords && Contains(SearchText(p), w)) {
      var w :| w in FoodWords && Contains(SearchText(p), w);
      var i :| 0 <= i < |FoodWords| && FoodWords[i] == w;
      assert MentionsFood(p);
    }
  }

  /** Bored mode: a topic, when present, decides alone; otherwise the post
      type (default "general") must be event, general or advice. */
  lemma BoredMatch(p: Post)
    ensures NormalTopic(p) != "" ==>
      (MatchesMode(p, "bored") <==>
        NormalTopic(p) in {"events", "outdoors", "attractions", "everyday", "history", "legends", "nightlife"})
    ensures NormalTopic(p) == "" ==>
      (MatchesMode(p, "bored") <==> NormalType(p) in {"event", "general", "advice"})
  {
  }

  /** An alert without a topic is never suggested to a bored user. */
  lemma UntopicedAlertNeverBored(p: Post)
    requires p.topic == "" && Lower(p.postType) == "alert"
    ensures !MatchesMode(p, "bored")
  {
    assert p.postType != "";
    assert NormalType(p) == Lower(p.postType);
  }

  /** Every mode other than "hungry" and "bored" ("idk", or none chosen)
      accepts every post. */
  lemma OtherModesAcceptAll(p: Post, mode: string)
    requires mode != "hungry" && mode != "bored"
    ensures MatchesMode(p, mode)
  {
  }

  /** A non-empty topic short-circuits the fallbacks: posts whose topics agree
      up to case are classified alike, whatever their type, title and body. */
  lemma TopicDecides(p: Post, q: Post, mode: string)
    requires NormalTopic(p) != "" && NormalTopic(p) == NormalTopic(q)
    ensures MatchesMode(p, mode) == MatchesMode(q, mode)
  {
  }

  /** Nightlife suits both a hungry and a bored user. */
  lemma NightlifeSuitsBoth(p: Post)
    requires Lower(p.topic) == "nightlife"
    ensures MatchesMode(p, "hungry") && MatchesMode(p, "bored")
  {
  }

  /** The keyword fallback matches substrings, not words: an untopiced post
      titled "Great hike" counts as food because "great" contains "eat". */
  lemma KeywordFallbackMatchesInsideWords()
    ensures MatchesMode(Post("1", "advice", "", "Great hike", "", None), "hungry")
  {
    var p := Post("1", "advice", "", "Great hike", "", None);
    var t := SearchText(p);
    LowerAt(p.title + " " + p.body);
    assert t[2..5] == "eat";
    assert OccursAt(t, FoodWords[0], 2);
    assert MentionsFood(p);
  }
}

=== FILE: notifications.dfy ===
/** The notification bell of js/notifications.js: which fetched alerts are
    unread and get marked read when the list opens, and what the unread
    badge shows. */
module Notifications {
  import opened Wrappers
  import opened Text

  /** A fetched notification row; `readAt` holds "" for a null `read_at`. */
  datatype Notification = Notification(id: string, title: string, readAt: string)

  /** `!x.read_at`. */
  predicate IsUnread(n: Notification) {
    n.readAt == ""
  }

  // -------------------------------------------------------- unread ids

  /** `data.filter((x) => !x.read_at).map((x) => x.id)`. */
  function UnreadIds(rows: seq<Notification>): (r: seq<string>)
    ensures |r| <= |rows|
    ensures forall id :: id in r <==> exists i :: 0 <= i < |rows| && IsUnread(rows[i]) && rows[i].id == id
    ensures r == [] <==> forall i :: 0 <= i < |rows| ==> !IsUnread(rows[i])
    decreases |rows|
  {
    if |rows| == 0 then []
    else
      var rest := UnreadIds(rows[1..]);
      assert forall i :: 1 <= i < |rows| ==> rows[i] == rows[1..][i - 1];
      if IsUnread(rows[0]) then [rows[0].id] + rest else rest
  }

  /** Selecting from two batches is selecting from each, in order: the ids
      keep the order in which the rows were fetched. */
  lemma {:induction false} UnreadIdsAppend(a: seq<Notification>, b: seq<Notification>)
    ensures UnreadIds(a + b) == UnreadIds(a) + UnreadIds(b)
    decreases |a|
  {
    if |a| == 0 {
      assert a + b == b;
    } else {
      assert (a + b)[0] == a[0];
      assert (a + b)[1..] == a[1..] + b;
      UnreadIdsAppend(a[1..], b);
    }
  }

  /** The number of unread rows. */
  function CountUnread(rows: seq<Notification>): nat
    decreases |rows|
  {
    if |rows| == 0 then 0
    else (if IsUnread(rows[0]) then 1 else 0) + CountUnread(rows[1..])
  }

  /** One id per unread row, duplicates included. */
  lemma {:induction false} UnreadIdsCount(rows: seq<Notification>)
    ensures |UnreadIds(rows)| == CountUnread(rows)
    decreases |rows|
  {
    if |rows| > 0 {
      UnreadIdsCount(rows[1..]);
    }
  }

  /** The "NEW" pill a row shows when its `read_at` is empty. */
  function NewPill(n: Notification): (r: string)
    ensures r != "" <==> IsUnread(n)
  {
    if n.readAt != "" then "" else "NEW"
  }

  /** The rows that show "NEW" are exactly the rows whose ids are marked
      read afterwards. */
  lemma NewPillsAreUnreadIds(rows: seq<Notification>, i: nat)
    requires i < |rows|
    ensures NewPill(rows[i]) != "" ==> rows[i].id in UnreadIds(rows)
    ensures rows[i].id !in UnreadIds(rows) ==> NewPill(rows[i]) == ""
  {
  }

  // --------------------------------------------------------- mark read

  /** The mark-read update: `Some(ids)` when one is sent, `None` when the
      source skips it. */
  function MarkReadRequest(rows: seq<Notification>): (r: Option<seq<string>>)
    ensures r.Some? <==> exists i :: 0 <= i < |rows| && IsUnread(rows[i])
    ensures r.Some? ==> r.value == UnreadIds(rows) && |r.value| > 0
  {
    var ids := UnreadIds(rows);
    if |ids| > 0 then
      assert ids[0] in ids;
      Some(ids)
    else
      assert forall i :: 0 <= i < |rows| && IsUnread(rows[i]) ==> rows[i].id in ids;
      None
  }

  /** What the update does to the fetched rows: each row whose id is listed
      and whose `read_at` is still null gets the timestamp `now`; rows read
      earlier keep their time. */
  function ApplyMarkRead(rows: seq<Notification>, ids: seq<string>, now: string): (r: seq<Notification>)
    requires now != ""
    ensures |r| == |rows|
    ensures forall i :: 0 <= i < |rows| ==> r[i].id == rows[i].id && r[i].title == rows[i].title
    ensures forall i :: 0 <= i < |rows| && !IsUnread(rows[i]) ==> r[i] == rows[i]
    ensures forall i :: 0 <= i < |rows| && rows[i].id in ids ==> !IsUnread(r[i])
    ensures forall i :: 0 <= i < |rows| && rows[i].id !in ids ==> r[i] == rows[i]
  {
    seq(|rows|, i requires 0 <= i < |rows| =>
      if rows[i].id in ids && IsUnread(rows[i]) then rows[i].(readAt := now) else rows[i])
  }

  /** After the update the opened list has nothing unread left, and a
      second opening sends no update. */
  lemma MarkReadLeavesNothingUnread(rows: seq<Notification>, now: string)
    requires now != ""
    ensures var after := ApplyMarkRead(rows, UnreadIds(rows), now);
      && UnreadIds(after) == []
      && MarkReadRequest(after).None?
  {
    var after := ApplyMarkRead(rows, UnreadIds(rows), now);
    forall i | 0 <= i < |after|
      ensures !IsUnread(after[i])
    {
      if IsUnread(rows[i]) {
        assert rows[i].id in UnreadIds(rows);
      }
    }
  }

  // ------------------------------------------------------------- badge

  /** The unread badge: hidden, or shown with a text. */
  datatype Badge = Hidden | Shown(text: string)

  /** `n = count ?? 0`; the badge shows `String(n)` when n > 0 and is hidden
      otherwise. */
  function BadgeFor(count: Option<int>): (r: Badge)
    ensures r.Shown? <==> count.Some? && count.value > 0
    ensures r.Shown? ==> |r.text| > 0 && AllDigits(r.text) && r.text[0] != '0'
    ensures r.Shown? ==> DecimalValue(r.text) == count.value
  {
    var n := count.GetOr(0);
    if n > 0 then
      DecimalRoundTrip(n);
      Shown(NatToString(n))
    else Hidden
  }

  /** The bell button and its badge. */
  datatype Bell = Bell(buttonShown: bool, badge: Badge)

  /** The outcome of the unread-count query. */
  datatype CountReply = SignedOut | QueryFailed | Counted(count: Option<int>)

  /** `refreshUnreadCount`: signed out hides both; a failed query shows the
      button and leaves the badge as it was; otherwise the badge follows
      the count. */
  function Refresh(bell: Bell, reply: CountReply): (r: Bell)
    ensures reply.SignedOut? ==> r == Bell(false, Hidden)
    ensures !reply.SignedOut? ==> r.buttonShown
    ensures reply.QueryFailed? ==> r.badge == bell.badge
    ensures reply.Counted? ==> r.badge == BadgeFor(reply.count)
  {
    match reply
    case SignedOut => Bell(false, Hidden)
    case QueryFailed => bell.(buttonShown := true)
    case Counted(c) => Bell(true, BadgeFor(c))
  }

  /** A badge left from a previous poll is replaced by the next count: two
      successful polls in a row depend only on the second. */
  lemma LatestCountWins(bell: Bell, first: Option<int>, second: Option<int>)
    ensures Refresh(Refresh(bell, Counted(first)), Counted(second)) == Refresh(bell, Counted(second))
  {
  }

  /** The badge never shows zero or a negative count. */
  lemma BadgeNeverShowsZero(count: Option<int>)
    ensures BadgeFor(count) != Shown("0")
    ensures count.Some? && count.value <= 0 ==> BadgeFor(count) == Hidden
  {
  }
}

=== FILE: place_list.dfy ===
/** The alphabetical place list of js/home.js: each row remembers a sort key
    built from the place's name, region and country, and new rows are
    inserted in front of the first row with a greater key. */
module PlaceList {
  import opened Wrappers
  import opened Text

  /** A place row as selected from `places`; `admin1` and `country` hold ""
      for null. */
  datatype Place = Place(id: string, name: string, admin1: string, country: string)

  /** `displayText`: "name", then ", admin1" and " (country)" when present. */
  function DisplayText(p: Place): (r: string)
    ensures |r| == |p.name| + (if p.admin1 != "" then 2 + |p.admin1| else 0)
                             + (if p.country != "" then 3 + |p.country| else 0)
    ensures r[..|p.name|] == p.name
    ensures p.admin1 != "" ==> r[|p.name|..|p.name| + 2 + |p.admin1|] == ", " + p.admin1
    ensures p.country != "" ==> r[|r| - |p.country| - 3..] == " (" + p.country + ")"
  {
    p.name + (if p.admin1 != "" then ", " + p.admin1 else "")
           + (if p.country != "" then " (" + p.country + ")" else "")
  }

  /** `(x || "").trim().toLowerCase()`. */
  function Normal(s: string): string {
    Lower(Trim(s))
  }

  /** `sortKey`: the three normalised fields joined with "|". */
  function SortKey(p: Place): string {
    Normal(p.name) + KeyTail(p)
  }

  /** The part of the key after the name. */
  function KeyTail(p: Place): string {
    "|" + Normal(p.admin1) + "|" + Normal(p.country)
  }

  /** The key starts with the normalised name, followed by "|". */
  lemma SortKeyShape(p: Place)
    ensures |SortKey(p)| > |Normal(p.name)|
    ensures SortKey(p)[..|Normal(p.name)|] == Normal(p.name)
    ensures SortKey(p)[|Normal(p.name)|] == '|'
  {
    ConcatPrefix(Normal(p.name), KeyTail(p));
  }

  lemma LowerKeepsTrimmed(t: string)
    requires IsTrimmed(t)
    ensures IsTrimmed(Lower(t))
  {
    LowerAt(t);
    if |t| > 0 {
      assert !IsSpace(LowerChar(t[0])) && !IsSpace(LowerChar(t[|t| - 1]));
    }
  }

  /** Normalising twice changes nothing. */
  lemma NormalIdempotent(s: string)
    ensures Normal(Normal(s)) == Normal(s)
  {
    var t := Trim(s);
    LowerKeepsTrimmed(t);
    assert Trim(Lower(t)) == Lower(t);
    LowerIdempotent(t);
  }

  /** The key sees a field only through its normal form: places whose
      fields agree up to case and surrounding white space share a key. */
  lemma SortKeyIgnoresCaseAndSpace(p: Place, q: Place)
    requires Normal(p.name) == Normal(q.name)
    requires Normal(p.admin1) == Normal(q.admin1)
    requires Normal(p.country) == Normal(q.country)
    ensures SortKey(p) == SortKey(q)
  {
  }

  /** In particular a place and its normalised copy share a key. */
  lemma NormalisedPlaceSameKey(p: Place)
    ensures SortKey(Place(p.id, Normal(p.name), Normal(p.admin1), Normal(p.country))) == SortKey(p)
  {
    NormalIdempotent(p.name);
    NormalIdempotent(p.admin1);
    NormalIdempotent(p.country);
    SortKeyIgnoresCaseAndSpace(Place(p.id, Normal(p.name), Normal(p.admin1), Normal(p.country)), p);
  }

  /** When the normalised names differ inside both, the names alone decide
      the order of the keys. */
  lemma SortKeyOrdersByName(p: Place, q: Place, k: nat)
    requires k < |Normal(p.name)| && k < |Normal(q.name)|
    requires Normal(p.name)[..k] == Normal(q.name)[..k] && Normal(p.name)[k] != Normal(q.name)[k]
    ensures LexLess(SortKey(p), SortKey(q)) <==> Normal(p.name)[k] < Normal(q.name)[k]
  {
    var a, b := SortKey(p), SortKey(q);
    SortKeyShape(p);
    SortKeyShape(q);
    PrefixAgrees(a, Normal(p.name), k);
    PrefixAgrees(b, Normal(q.name), k);
    LexLessAtFirstDifference(a, b, k);
  }

  /** "|" comes after the space and every letter, so a name extended by such
      a character sorts before the name itself: "Springfield Gardens" is
      listed above "Springfield". */
  lemma ExtendedNameSortsFirst(p: Place, q: Place)
    requires |Normal(q.name)| > |Normal(p.name)|
    requires Normal(q.name)[..|Normal(p.name)|] == Normal(p.name)
    requires Normal(q.name)[|Normal(p.name)|] < '|'
    ensures LexLess(SortKey(q), SortKey(p))
  {
    var k := |Normal(p.name)|;
    var a, b := SortKey(q), SortKey(p);
    SortKeyShape(p);
    SortKeyShape(q);
    PrefixAgrees(a, Normal(q.name), k);
    LexLessAtFirstDifference(a, b, k);
  }

  // ----------------------------------------------------------------- rows

  /** A list item: a place row built by `makeRow`, which carries its
      `data-sort-key`, or a status row ("No places yet.", "Loading…", an
      error message), which carries none. */
  datatype Row = PlaceRow(place: Place, key: string) | StatusRow(message: string)

  /** `el.dataset.sortKey || ""`. */
  function KeyOf(r: Row): string {
    match r
    case PlaceRow(_, k) => k
    case StatusRow(_) => ""
  }

  /** The row's text content. */
  function TextOf(r: Row): string {
    match r
    case PlaceRow(p, _) => DisplayText(p)
    case StatusRow(m) => m
  }

  /** `makeRow`: the place's text, with its sort key attached. */
  function MakeRow(p: Place): (r: Row)
    ensures r.PlaceRow? && r.place == p && KeyOf(r) == SortKey(p)
  {
    PlaceRow(p, SortKey(p))
  }

  const Placeholder: Row := StatusRow("No places yet.")

  const PlaceholderPhrase: string := "No places yet"

  /** Keys never decrease down the list. */
  predicate SortedRows(rows: seq<Row>) {
    forall i, j :: 0 <= i < j < |rows| ==> !LexLess(KeyOf(rows[j]), KeyOf(rows[i]))
  }

  /** The index of the first row whose key is strictly greater than `key`,
      or the length when there is none. */
  function InsertPosition(rows: seq<Row>, key: string): (i: nat)
    ensures i <= |rows|
    ensures forall j :: 0 <= j < i ==> !LexLess(key, KeyOf(rows[j]))
    ensures i < |rows| ==> LexLess(key, KeyOf(rows[i]))
    decreases |rows|
  {
    if |rows| == 0 then 0
    else if LexLess(key, KeyOf(rows[0])) then 0
    else 1 + InsertPosition(rows[1..], key)
  }

  /** `ul.insertBefore(li, before)`, or `ul.appendChild(li)` without one. */
  function InsertRow(rows: seq<Row>, row: Row): (r: seq<Row>)
    ensures |r| == |rows| + 1
    ensures multiset(r) == multiset(rows) + multiset{row}
    decreases |rows|
  {
    if |rows| == 0 || LexLess(KeyOf(row), KeyOf(rows[0])) then [row] + rows
    else
      assert rows == [rows[0]] + rows[1..];
      [rows[0]] + InsertRow(rows[1..], row)
  }

  /** The new row goes exactly at the insert position; the other rows keep
      their order around it. */
  lemma {:induction false} InsertRowShape(rows: seq<Row>, row: Row)
    ensures var i := InsertPosition(rows, KeyOf(row));
      InsertRow(rows, row) == rows[..i] + [row] + rows[i..]
    decreases |rows|
  {
    var key := KeyOf(row);
    if |rows| == 0 || LexLess(key, KeyOf(rows[0])) {
      assert InsertPosition(rows, key) == 0;
      assert rows[..0] == [] && rows[0..] == rows;
    } else {
      InsertRowShape(rows[1..], row);
      var j := InsertPosition(rows[1..], key);
      assert InsertPosition(rows, key) == j + 1;
      SliceAfterHead(rows, j);
      ConsRegroup(rows[0], rows[1..][..j], row, rows[1..][j..]);
    }
  }

  lemma SliceAfterHead<T>(s: seq<T>, j: nat)
    requires j < |s|
    ensures s[..j + 1] == [s[0]] + s[1..][..j]
    ensures s[j + 1..] == s[1..][j..]
  {
  }

  lemma ConsRegroup<T>(x: T, a: seq<T>, y: T, b: seq<T>)
    ensures [x] + (a + [y] + b) == ([x] + a) + [y] + b
  {
  }

  /** `a` strictly below `b`, and `b` not above `c`: then `a` is strictly
      below `c`. */
  lemma LessThenNotAbove(a: string, b: string, c: string)
    requires LexLess(a, b) && !LexLess(c, b)
    ensures LexLess(a, c) && !LexLess(c, a)
  {
    if b != c {
      LexLessTotal(b, c);
      LexLessTransitive(a, b, c);
    }
    if LexLess(c, a) {
      LexLessTransitive(c, a, c);
      LexLessIrreflexive(c);
    }
  }

  /** A row whose key is not above any key of a sorted list can head it. */
  lemma ConsSorted(x: Row, rest: seq<Row>)
    requires SortedRows(rest)
    requires forall j :: 0 <= j < |rest| ==> !LexLess(KeyOf(rest[j]), KeyOf(x))
    ensures SortedRows([x] + rest)
  {
    var r := [x] + rest;
    forall i, j | 0 <= i < j < |r|
      ensures !LexLess(KeyOf(r[j]), KeyOf(r[i]))
    {
      assert r[j] == rest[j - 1];
      if i > 0 {
        assert r[i] == rest[i - 1];
      }
    }
  }

  /** Insertion keeps a sorted list sorted. */
  lemma {:induction false} InsertRowSorted(rows: seq<Row>, row: Row)
    requires SortedRows(rows)
    ensures SortedRows(InsertRow(rows, row))
    decreases |rows|
  {
    var key := KeyOf(row);
    if |rows| == 0 {
      assert InsertRow(rows, row) == [row];
    } else if LexLess(key, KeyOf(rows[0])) {
      forall j | 0 <= j < |rows|
        ensures !LexLess(KeyOf(rows[j]), key)
      {
        if j > 0 {
          LessThenNotAbove(key, KeyOf(rows[0]), KeyOf(rows[j]));
        } else {
          LexLessIrreflexive(KeyOf(rows[0]));
          LessThenNotAbove(key, KeyOf(rows[0]), KeyOf(rows[0]));
        }
      }
      ConsSorted(row, rows);
    } else {
      var rest := InsertRow(rows[1..], row);
      InsertRowSorted(rows[1..], row);
      forall j | 0 <= j < |rest|
        ensures !LexLess(KeyOf(rest[j]), KeyOf(rows[0]))
      {
        assert rest[j] in multiset(rest);
      }
      ConsSorted(rows[0], rest);
    }
  }

  /** The new row follows every row whose key is not greater (so it lands
      after rows with an equal key) and, in a sorted list, precedes every
      row whose key is greater. */
  lemma InsertRowStable(rows: seq<Row>, row: Row)
    requires SortedRows(rows)
    ensures var i := InsertPosition(rows, KeyOf(row));
      && (forall j :: 0 <= j < i ==> !LexLess(KeyOf(row), KeyOf(rows[j])))
      && (forall j :: i <= j < |rows| ==> LexLess(KeyOf(row), KeyOf(rows[j])))
  {
    var i := InsertPosition(rows, KeyOf(row));
    forall j | i <= j < |rows|
      ensures LexLess(KeyOf(row), KeyOf(rows[j]))
    {
      if j > i {
        LessThenNotAbove(KeyOf(row), KeyOf(rows[i]), KeyOf(rows[j]));
      }
    }
  }

  /** The placeholder test as the source writes it: the list has one child
      and its text contains "No places yet". */
  predicate LooksEmptyAsWritten(rows: seq<Row>) {
    |rows| == 1 && Contains(TextOf(rows[0]), PlaceholderPhrase)
  }

  /** The placeholder test as intended: the one child is a status row. */
  predicate LooksEmpty(rows: seq<Row>) {
    |rows| == 1 && rows[0].StatusRow? && Contains(TextOf(rows[0]), PlaceholderPhrase)
  }

  /** `insertPlaceSorted` exactly as written. */
  function InsertPlaceSortedAsWritten(rows: seq<Row>, p: Place): (r: seq<Row>)
    ensures LooksEmptyAsWritten(rows) ==> r == [MakeRow(p)]
    ensures !LooksEmptyAsWritten(rows) ==> multiset(r) == multiset(rows) + multiset{MakeRow(p)}
  {
    InsertRow(if LooksEmptyAsWritten(rows) then [] else rows, MakeRow(p))
  }

  /** `insertPlaceSorted` with the placeholder recognised as a status row:
      only the placeholder is ever cleared, never a place. */
  function InsertPlaceSorted(rows: seq<Row>, p: Place): (r: seq<Row>)
    ensures LooksEmpty(rows) ==> r == [MakeRow(p)]
    ensures !LooksEmpty(rows) ==> multiset(r) == multiset(rows) + multiset{MakeRow(p)}
    ensures forall x :: x in rows && x.PlaceRow? ==> x in r
    ensures MakeRow(p) in r
    ensures SortedRows(rows) ==> SortedRows(r)
  {
    var base := if LooksEmpty(rows) then [] else rows;
    var r := InsertRow(base, MakeRow(p));
    PlaceRowsSurviveClearing(rows);
    assert forall x :: x in base ==> x in multiset(r);
    assert MakeRow(p) in multiset(r);
    assert SortedRows(rows) ==> SortedRows(r) by {
      if SortedRows(rows) {
        InsertRowSorted(base, MakeRow(p));
      }
    }
    r
  }

  lemma PlaceRowsSurviveClearing(rows: seq<Row>)
    ensures forall x :: x in rows && x.PlaceRow? ==> x in (if LooksEmpty(rows) then [] else rows)
  {
    if LooksEmpty(rows) {
      forall x | x in rows
        ensures x.StatusRow?
      {
        assert x == rows[0];
      }
    }
  }

  /** The single placeholder is replaced by the first place added. */
  lemma PlaceholderIsCleared(p: Place)
    ensures InsertPlaceSorted([Placeholder], p) == [MakeRow(p)]
    ensures InsertPlaceSortedAsWritten([Placeholder], p) == [MakeRow(p)]
  {
    assert OccursAt(TextOf(Placeholder), PlaceholderPhrase, 0);
  }

  /** The source's text test also matches a real place whose text contains
      the phrase: adding a second place then drops the first. */
  lemma AsWrittenDropsLonePlace(lone: Row, added: Place)
    requires lone.PlaceRow? && Contains(TextOf(lone), PlaceholderPhrase)
    requires lone.place != added
    ensures InsertPlaceSortedAsWritten([lone], added) == [MakeRow(added)]
    ensures lone !in InsertPlaceSortedAsWritten([lone], added)
    ensures lone in InsertPlaceSorted([lone], added)
  {
    var next := MakeRow(added);
    assert LooksEmptyAsWritten([lone]);
    assert InsertRow([], next) == [next];
    assert lone != next by {
      assert lone.place != next.place;
    }
    assert lone in [lone];
  }

  /** `loadPlaces` with the corrected insertion: the list is emptied, then
      every fetched place inserted. */
  function BuildList(rows: seq<Row>, places: seq<Place>): seq<Row>
    decreases |places|
  {
    if |places| == 0 then rows
    else BuildList(InsertPlaceSorted(rows, places[0]), places[1..])
  }

  /** One row per place, in order. */
  function Rows(places: seq<Place>): seq<Row> {
    if |places| == 0 then [] else [MakeRow(places[0])] + Rows(places[1..])
  }

  /** With the corrected insertion, starting from an empty list and whatever
      order the server returns, the list ends up sorted and holds one row
      per fetched place. */
  lemma {:induction false} BuildListSorted(rows: seq<Row>, places: seq<Place>)
    requires SortedRows(rows)
    requires forall i :: 0 <= i < |rows| ==> rows[i].PlaceRow?
    ensures SortedRows(BuildList(rows, places))
    ensures multiset(BuildList(rows, places)) == multiset(rows) + multiset(Rows(places))
    decreases |places|
  {
    if |places| > 0 {
      var next := InsertPlaceSorted(rows, places[0]);
      InsertPlaceStep(rows, places[0]);
      BuildListSorted(next, places[1..]);
    }
  }

  /** The corrected load of place rows holds only place rows. */
  lemma {:induction false} BuildListPlaceRows(rows: seq<Row>, places: seq<Place>)
    requires SortedRows(rows)
    requires forall i :: 0 <= i < |rows| ==> rows[i].PlaceRow?
    ensures forall i :: 0 <= i < |BuildList(rows, places)| ==> BuildList(rows, places)[i].PlaceRow?
    decreases |places|
  {
    if |places| > 0 {
      InsertPlaceStep(rows, places[0]);
      BuildListPlaceRows(InsertPlaceSorted(rows, places[0]), places[1..]);
    }
  }

  /** One step of `loadPlaces` on a list of place rows. */
  lemma InsertPlaceStep(rows: seq<Row>, p: Place)
    requires SortedRows(rows)
    requires forall i :: 0 <= i < |rows| ==> rows[i].PlaceRow?
    ensures var next := InsertPlaceSorted(rows, p);
      && SortedRows(next)
      && (forall i :: 0 <= i < |next| ==> next[i].PlaceRow?)
      && multiset(next) == multiset(rows) + multiset{MakeRow(p)}
  {
    assert !LooksEmpty(rows) by {
      if |rows| == 1 { assert rows[0].PlaceRow?; }
    }
    var next := InsertPlaceSorted(rows, p);
    assert next == InsertRow(rows, MakeRow(p));
    forall i | 0 <= i < |next|
      ensures next[i].PlaceRow?
    {
      assert next[i] in multiset(next);
    }
  }

  /** `loadPlaces` exactly as written: each fetched place goes through the
      source's text-based placeholder test. */
  function BuildListAsWritten(rows: seq<Row>, places: seq<Place>): seq<Row>
    decreases |places|
  {
    if |places| == 0 then rows
    else BuildListAsWritten(InsertPlaceSortedAsWritten(rows, places[0]), places[1..])
  }

  /** No place's display text contains the placeholder phrase. */
  predicate NoPhrase(places: seq<Place>) {
    forall i :: 0 <= i < |places| ==> !Contains(DisplayText(places[i]), PlaceholderPhrase)
  }

  /** Place rows none of whose texts contain the placeholder phrase. */
  predicate PhraseFreeRows(rows: seq<Row>) {
    forall i :: 0 <= i < |rows| ==> rows[i].PlaceRow? && !Contains(TextOf(rows[i]), PlaceholderPhrase)
  }

  /** When no place's text contains the phrase, the text test never fires
      and the load as written agrees with the corrected one. */
  lemma {:induction false} AsWrittenLoadAgrees(rows: seq<Row>, places: seq<Place>)
    requires PhraseFreeRows(rows) && NoPhrase(places)
    ensures BuildListAsWritten(rows, places) == BuildList(rows, places)
    decreases |places|
  {
    if |places| > 0 {
      var p := places[0];
      InsertKeepsPhraseFree(rows, p);
      NoPhraseTail(places);
      AsWrittenLoadAgrees(InsertPlaceSorted(rows, p), places[1..]);
    }
  }

  /** On phrase-free place rows both insertions agree, and adding a place
      whose text lacks the phrase keeps the list phrase-free. */
  lemma InsertKeepsPhraseFree(rows: seq<Row>, p: Place)
    requires PhraseFreeRows(rows) && !Contains(DisplayText(p), PlaceholderPhrase)
    ensures InsertPlaceSortedAsWritten(rows, p) == InsertPlaceSorted(rows, p)
    ensures PhraseFreeRows(InsertPlaceSorted(rows, p))
  {
    NeitherTestFires(rows);
    PhraseFreeGrows(rows, MakeRow(p), InsertPlaceSorted(rows, p));
  }

  /** Phrase-free place rows meet neither placeholder test. */
  lemma NeitherTestFires(rows: seq<Row>)
    requires PhraseFreeRows(rows)
    ensures !LooksEmptyAsWritten(rows) && !LooksEmpty(rows)
  {
    if |rows| == 1 {
      assert !Contains(TextOf(rows[0]), PlaceholderPhrase);
    }
  }

  /** Adding one phrase-free place row to a phrase-free list, in any order,
      gives a phrase-free list. */
  lemma PhraseFreeGrows(rows: seq<Row>, x: Row, r: seq<Row>)
    requires PhraseFreeRows(rows)
    requires x.PlaceRow? && !Contains(TextOf(x), PlaceholderPhrase)
    requires multiset(r) == multiset(rows) + multiset{x}
    ensures PhraseFreeRows(r)
  {
    forall i | 0 <= i < |r|
      ensures r[i].PlaceRow? && !Contains(TextOf(r[i]), PlaceholderPhrase)
    {
      assert r[i] in multiset(r);
      if r[i] != x {
        assert r[i] in multiset(rows);
        var j :| 0 <= j < |rows| && rows[j] == r[i];
      }
    }
  }

  lemma NoPhraseTail(places: seq<Place>)
    requires |places| > 0 && NoPhrase(places)
    ensures !Contains(DisplayText(places[0]), PlaceholderPhrase)
    ensures NoPhrase(places[1..])
  {
    forall i | 0 <= i < |places[1..]|
      ensures !Contains(DisplayText(places[1..][i]), PlaceholderPhrase)
    {
      assert places[1..][i] == places[i + 1];
    }
  }

  /** What the places query answers: an error message or the fetched rows. */
  datatype LoadReply = LoadFailed(message: string) | Loaded(places: seq<Place>)

  /** `loadPlaces` as written: an error becomes one status row, an empty
      answer the placeholder, anything else goes through the insertion as
      written, one place at a time. The status text is what the reader sees
      once the escaped message is rendered. */
  function LoadPlaces(reply: LoadReply): seq<Row> {
    match reply
    case LoadFailed(m) => [StatusRow("Could not load places: " + m)]
    case Loaded(places) =>
      if |places| == 0 then [Placeholder] else BuildListAsWritten([], places)
  }

  /** Under that condition the page as written shows the placeholder exactly
      when nothing was fetched, and otherwise ends up sorted with one row per
      fetched place and nothing else. */
  lemma LoadAsWrittenSorted(places: seq<Place>)
    requires NoPhrase(places)
    ensures LooksEmpty(LoadPlaces(Loaded(places))) <==> |places| == 0
    ensures |places| == 0 ==> LoadPlaces(Loaded(places)) == [Placeholder]
    ensures |places| > 0 ==> SortedRows(LoadPlaces(Loaded(places)))
    ensures |places| > 0 ==> multiset(LoadPlaces(Loaded(places))) == multiset(Rows(places))
    ensures |places| > 0 ==>
      forall i :: 0 <= i < |LoadPlaces(Loaded(places))| ==> LoadPlaces(Loaded(places))[i].PlaceRow?
  {
    if |places| == 0 {
      assert Contains(TextOf(Placeholder), PlaceholderPhrase) by {
        assert OccursAt(TextOf(Placeholder), PlaceholderPhrase, 0);
      }
    } else {
      AsWrittenLoadAgrees([], places);
      BuildListSorted([], places);
      BuildListPlaceRows([], places);
      var r := BuildList([], places);
      if |r| == 1 { assert r[0].PlaceRow?; }
    }
  }

  /** The load as written drops a first place whose text contains the
      phrase: two fetched places leave one row, where the corrected load
      keeps both. */
  lemma LoadDropsFirstPlace(a: Place, b: Place)
    requires Contains(DisplayText(a), PlaceholderPhrase) && a != b
    ensures LoadPlaces(Loaded([a, b])) == [MakeRow(b)]
    ensures |LoadPlaces(Loaded([a, b]))| == 1
    ensures |BuildList([], [a, b])| == 2
  {
    assert InsertPlaceSortedAsWritten([], a) == [MakeRow(a)] by {
      assert InsertRow([], MakeRow(a)) == [MakeRow(a)];
    }
    AsWrittenDropsLonePlace(MakeRow(a), b);
    PairLoad([], a, b);
    PairRowsCount(a, b);
  }

  /** Loading two places is two insertions. */
  lemma PairLoad(rows: seq<Row>, a: Place, b: Place)
    ensures BuildListAsWritten(rows, [a, b])
      == InsertPlaceSortedAsWritten(InsertPlaceSortedAsWritten(rows, a), b)
  {
    var r1 := InsertPlaceSortedAsWritten(rows, a);
    assert [a, b][1..] == [b];
    assert BuildListAsWritten(rows, [a, b]) == BuildListAsWritten(r1, [b]);
    var r2 := InsertPlaceSortedAsWritten(r1, b);
    assert [b][1..] == [];
    assert BuildListAsWritten(r1, [b]) == BuildListAsWritten(r2, []);
  }

  /** The corrected load of two places has two rows. */
  lemma PairRowsCount(a: Place, b: Place)
    ensures |BuildList([], [a, b])| == 2
  {
    BuildListSorted([], [a, b]);
    assert [a, b][1..] == [b];
    assert Rows([a, b]) == [MakeRow(a)] + Rows([b]);
    assert Rows([b]) == [MakeRow(b)] + Rows([]);
    assert |multiset(BuildList([], [a, b]))| == |multiset(Rows([a, b]))|;
  }

  // ------------------------------------------------------- add-place form

  datatype AddPlaceError = NotSignedIn | NameRequired

  function AddPlaceErrorMessage(e: AddPlaceError): string {
    match e
    case NotSignedIn => "Please log in to add places."
    case NameRequired => "Name is required."
  }

  /** The payload `places.insert` receives; blank region and country are
      sent as null. */
  datatype PlacePayload = PlacePayload(
    name: string,
    admin1: Option<string>,
    country: Option<string>,
    provider: string,
    providerPlaceId: string)

  /** The submit handler's checks and normalisation. `uuid` stands for
      `crypto.randomUUID()`. */
  function AddPlace(signedIn: bool, name: string, admin1: string, country: string, uuid: string):
    (r: Result<PlacePayload, AddPlaceError>)
    ensures !signedIn ==> r == Failure(NotSignedIn)
    ensures signedIn && Trim(name) == "" ==> r == Failure(NameRequired)
    ensures r.Success? <==> signedIn && Trim(name) != ""
    ensures r.Success? ==>
      && r.value.name != "" && IsTrimmed(r.value.name) && r.value.name == Trim(name)
      && (r.value.admin1.Some? <==> Trim(admin1) != "")
      && (r.value.admin1.Some? ==> r.value.admin1.value == Trim(admin1))
      && (r.value.country.Some? <==> Trim(country) != "")
      && (r.value.country.Some? ==> r.value.country.value == Trim(country))
      && r.value.provider == "user"
      && r.value.providerPlaceId == uuid
  {
    if !signedIn then Failure(NotSignedIn)
    else if Trim(name) == "" then Failure(NameRequired)
    else Success(PlacePayload(
      Trim(name),
      if Trim(admin1) != "" then Some(Trim(admin1)) else None,
      if Trim(country) != "" then Some(Trim(country)) else None,
      "user",
      uuid))
  }

  /** Submitting the stored fields again yields the same payload. */
  lemma AddPlaceIdempotent(name: string, admin1: string, country: string, uuid: string)
    requires AddPlace(true, name, admin1, country, uuid).Success?
    ensures var v := AddPlace(true, name, admin1, country, uuid).value;
      AddPlace(true, v.name, v.admin1.GetOr(""), v.country.GetOr(""), uuid) == Success(v)
  {
    var n, a, c := Trim(name), Trim(admin1), Trim(country);
    assert Trim(n) == n && Trim(a) == a && Trim(c) == c;
    var v := AddPlace(true, name, admin1, country, uuid).value;
    assert v.admin1.GetOr("") == a && v.country.GetOr("") == c;
    assert v.name == n;
  }
}

=== FILE: place_page.dfy ===
/** The small decisions around the GH-Mind card and the post list in
    js/place.js: the time-of-day bucket, the mode label, the badge maps, the
    new-post guard, the type filter and the suggestion-event payload. */
module PlacePage {
  import opened Wrappers
  import opened Text
  import opened PostModel
  import opened ModeClassifier
  import Selector

  // ---------------------------------------------------------------- labels

  /** `timeBucket`, taking `d.getHours()` as its input. */
  function TimeBucket(hour: int): (r: string)
    ensures r == "morning" <==> 5 <= hour < 12
    ensures r == "afternoon" <==> 12 <= hour < 17
    ensures r == "evening" <==> 17 <= hour < 22
    ensures r == "late" <==> hour < 5 || 22 <= hour
  {
    if 5 <= hour < 12 then "morning"
    else if 12 <= hour < 17 then "afternoon"
    else if 17 <= hour < 22 then "evening"
    else "late"
  }

  /** The bucket of each hour of the day, written out as a table. */
  const HourTable: seq<string> := [
    "late", "late", "late", "late", "late",
    "morning", "morning", "morning", "morning", "morning", "morning", "morning",
    "afternoon", "afternoon", "afternoon", "afternoon", "afternoon",
    "evening", "evening", "evening", "evening", "evening",
    "late", "late"]

  lemma TimeBucketMatchesTable(hour: int)
    requires 0 <= hour < 24
    ensures |HourTable| == 24
    ensures TimeBucket(hour) == HourTable[hour]
  {
  }

  /** `modeLabel`: the word shown in "Because you said you're …". */
  function ModeLabel(m: string): (r: string)
    ensures r in {"bored", "hungry", "unsure"}
    ensures m in {"bored", "hungry"} ==> r == m
    ensures m !in {"bored", "hungry"} ==> r == "unsure"
    ensures r == "unsure" ==> forall p :: MatchesMode(p, m)
  {
    if m == "bored" then "bored"
    else if m == "hungry" then "hungry"
    else "unsure"
  }

  /** The label is for display only: the topic-diversity rule keys on the
      mode "idk", and a mode literally named "unsure" does not trigger it. */
  lemma DiversityKeysOnIdkNotUnsure(lastTopic: string)
    requires lastTopic != ""
    ensures ModeLabel("idk") == "unsure" && ModeLabel("unsure") == "unsure"
    ensures Selector.Diversifies("idk", lastTopic)
    ensures !Selector.Diversifies("unsure", lastTopic)
  {
  }

  // ---------------------------------------------------------------- badges

  datatype Badge = Badge(caption: string, cls: string)

  const TopicBadges: map<string, Badge> := map[
    "food_drink" := Badge("FOOD", "bg-warning text-dark"),
    "outdoors" := Badge("OUTDOORS", "bg-success"),
    "history" := Badge("HISTORY", "bg-info text-dark"),
    "events" := Badge("EVENTS", "bg-primary"),
    "attractions" := Badge("ATTRACTIONS", "bg-secondary"),
    "nightlife" := Badge("NIGHTLIFE", "bg-dark"),
    "legends" := Badge("LEGENDS", "bg-danger"),
    "everyday" := Badge("EVERYDAY", "bg-light text-dark border")]

  const TypeBadges: map<string, Badge> := map[
    "alert" := Badge("ALERT", "bg-danger"),
    "advice" := Badge("ADVICE", "bg-primary"),
    "event" := Badge("EVENT", "bg-success"),
    "general" := Badge("GENERAL", "bg-secondary")]

  /** `topicBadge`: lower-cased topic (default "everyday"), unknown topics
      fall back to the EVERYDAY badge. */
  function TopicBadge(topic: string): (r: Badge)
    ensures r in TopicBadges.Values
    ensures Lower(topic) in TopicBadges ==> r == TopicBadges[Lower(topic)]
    ensures Lower(topic) !in TopicBadges ==> r == TopicBadges["everyday"]
  {
    var t := Lower(if topic != "" then topic else "everyday");
    assert topic == "" ==> t == "everyday";
    if t in TopicBadges then TopicBadges[t] else TopicBadges["everyday"]
  }

  /** `typeBadge`: lower-cased type (default "general"), unknown types fall
      back to the GENERAL badge. */
  function TypeBadge(postType: string): (r: Badge)
    ensures r in TypeBadges.Values
    ensures Lower(postType) in TypeBadges ==> r == TypeBadges[Lower(postType)]
    ensures Lower(postType) !in TypeBadges ==> r == TypeBadges["general"]
  {
    var t := Lower(if postType != "" then postType else "general");
    assert postType == "" ==> t == "general";
    if t in TypeBadges then TypeBadges[t] else TypeBadges["general"]
  }

  /** Distinct known topics get distinct badges, so a badge names its topic. */
  lemma TopicBadgesDistinct(a: string, b: string)
    requires a in TopicBadges && b in TopicBadges && a != b
    ensures TopicBadges[a] != TopicBadges[b]
  {
  }

  lemma TypeBadgesDistinct(a: string, b: string)
    requires a in TypeBadges && b in TypeBadges && a != b
    ensures TypeBadges[a] != TypeBadges[b]
  {
  }

  // ------------------------------------------------------ new-post guard

  const AllowedPostTypes: set<string> := {"general", "advice", "event", "alert"}

  const AllowedTopics: set<string> := {
    "everyday", "food_drink", "outdoors", "history", "events", "attractions",
    "nightlife", "legends"}

  /** The badge maps cover exactly the values the post form accepts, so an
      accepted post always gets its own badge rather than the fallback. */
  lemma BadgesCoverAllowedValues()
    ensures TopicBadges.Keys == AllowedTopics
    ensures TypeBadges.Keys == AllowedPostTypes
  {
  }

  datatype PostError = NotSignedIn | InvalidType | InvalidTopic | TitleRequired

  function PostErrorMessage(e: PostError): string {
    match e
    case NotSignedIn => "Please log in first."
    case InvalidType => "Invalid post type."
    case InvalidTopic => "Invalid topic."
    case TitleRequired => "Title is required."
  }

  /** The row the form inserts; an empty body is sent as null. */
  datatype Draft = Draft(postType: string, topic: string, title: string, body: Option<string>)

  /** `raw && raw.trim() ? raw : fallback`: a missing or blank select value
      becomes the fallback; anything else is kept untrimmed. */
  function OrDefault(raw: Option<string>, fallback: string): (r: string)
    ensures raw.None? || Trim(raw.value) == "" ==> r == fallback
    ensures raw.Some? && Trim(raw.value) != "" ==> r == raw.value
  {
    if raw.Some? && Trim(raw.value) != "" then raw.value else fallback
  }

  /** The submit handler's checks, in order: signed in, type, topic, title. */
  function ValidatePost(signedIn: bool, rawType: Option<string>, title: string, body: string,
                        rawTopic: Option<string>): (r: Result<Draft, PostError>)
    ensures r.Success? <==>
      && signedIn
      && OrDefault(rawType, "general") in AllowedPostTypes
      && OrDefault(rawTopic, "everyday") in AllowedTopics
      && Trim(title) != ""
    ensures !signedIn ==> r == Failure(NotSignedIn)
    ensures signedIn && OrDefault(rawType, "general") !in AllowedPostTypes ==> r == Failure(InvalidType)
    ensures (signedIn && OrDefault(rawType, "general") in AllowedPostTypes
             && OrDefault(rawTopic, "everyday") !in AllowedTopics) ==> r == Failure(InvalidTopic)
    ensures (signedIn && OrDefault(rawType, "general") in AllowedPostTypes
             && OrDefault(rawTopic, "everyday") in AllowedTopics && Trim(title) == "") ==> r == Failure(TitleRequired)
    ensures r.Success? ==>
      r.value.postType == OrDefault(rawType, "general") && r.value.topic == OrDefault(rawTopic, "everyday")
    ensures r.Success? ==>
      && r.value.postType in AllowedPostTypes
      && r.value.topic in AllowedTopics
      && r.value.title != "" && IsTrimmed(r.value.title)
      && (r.value.body.Some? ==> r.value.body.value != "" && IsTrimmed(r.value.body.value))
      && r.value.title == Trim(title)
      && r.value.body.GetOr("") == Trim(body)
  {
    var postType := OrDefault(rawType, "general");
    var topic := OrDefault(rawTopic, "everyday");
    if !signedIn then Failure(NotSignedIn)
    else if postType !in AllowedPostTypes then Failure(InvalidType)
    else if topic !in AllowedTopics then Failure(InvalidTopic)
    else if Trim(title) == "" then Failure(TitleRequired)
    else Success(Draft(postType, topic, Trim(title), if Trim(body) != "" then Some(Trim(body)) else None))
  }

  /** Blank selects fall back to "general" and "everyday", which pass. */
  lemma BlankSelectsDefault(title: string, body: string)
    requires Trim(title) != ""
    ensures var r := ValidatePost(true, None, title, body, Some(" "));
      r.Success? && r.value.postType == "general" && r.value.topic == "everyday"
  {
    assert Trim(" ") == "" by {
      assert IsSpace(" "[0]);
    }
    assert OrDefault(None, "general") == "general";
    assert OrDefault(Some(" "), "everyday") == "everyday";
  }

  /** An accepted draft, submitted again as it stands, is accepted unchanged. */
  lemma ValidatePostIdempotent(signedIn: bool, rawType: Option<string>, title: string, body: string,
                               rawTopic: Option<string>)
    requires ValidatePost(signedIn, rawType, title, body, rawTopic).Success?
    ensures var d := ValidatePost(signedIn, rawType, title, body, rawTopic).value;
      ValidatePost(true, Some(d.postType), d.title, d.body.GetOr(""), Some(d.topic)) == Success(d)
  {
    var d := ValidatePost(signedIn, rawType, title, body, rawTopic).value;
    AllowedValuesAreNotBlank(d.postType, d.topic);
    assert OrDefault(Some(d.postType), "general") == d.postType;
    assert OrDefault(Some(d.topic), "everyday") == d.topic;
    assert Trim(d.title) == d.title;
    var b := d.body.GetOr("");
    assert Trim(b) == b;
    assert (if Trim(b) != "" then Some(Trim(b)) else None) == d.body;
  }

  lemma AllowedValuesAreNotBlank(postType: string, topic: string)
    requires postType in AllowedPostTypes && topic in AllowedTopics
    ensures Trim(postType) == postType && Trim(topic) == topic
    ensures postType != "" && topic != ""
  {
    assert LetterEnds(postType) by {
      if postType == "general" {} else if postType == "advice" {}
      else if postType == "event" {} else {}
    }
    assert LetterEnds(topic) by {
      if topic == "everyday" {} else if topic == "food_drink" {}
      else if topic == "outdoors" {} else if topic == "history" {}
      else if topic == "events" {} else if topic == "attractions" {}
      else if topic == "nightlife" {} else {}
    }
    LetterEndsTrimmed(postType);
    LetterEndsTrimmed(topic);
  }

  /** Starts and ends with a lower-case ASCII letter. */
  predicate LetterEnds(s: string) {
    |s| > 0 && 'a' <= s[0] <= 'z' && 'a' <= s[|s| - 1] <= 'z'
  }

  lemma LetterEndsTrimmed(s: string)
    requires LetterEnds(s)
    ensures Trim(s) == s
  {
    assert !IsSpace(s[0]) && !IsSpace(s[|s| - 1]);
  }

  // --------------------------------------------------------- type filter

  /** `p.type || "general"`. */
  function TypeOrGeneral(p: Post): string {
    if p.postType != "" then p.postType else "general"
  }

  /** The list `renderPosts` shows for the current filter button. */
  function FilterPosts(posts: seq<Post>, filter: string): (r: seq<Post>)
    ensures filter == "all" ==> r == posts
    ensures forall p :: p in r <==> p in posts && (filter == "all" || TypeOrGeneral(p) == filter)
    ensures |r| <= |posts|
    decreases |posts|
  {
    if |posts| == 0 then []
    else
      var rest := FilterPosts(posts[1..], filter);
      assert posts == [posts[0]] + posts[1..];
      if filter == "all" || TypeOrGeneral(posts[0]) == filter then [posts[0]] + rest else rest
  }

  /** The filter keeps the page's order: it distributes over concatenation. */
  lemma {:induction false} FilterPostsAppend(a: seq<Post>, b: seq<Post>, filter: string)
    ensures FilterPosts(a + b, filter) == FilterPosts(a, filter) + FilterPosts(b, filter)
    decreases |a|
  {
    if |a| == 0 {
      assert a + b == b;
    } else {
      assert (a + b)[1..] == a[1..] + b;
      FilterPostsAppend(a[1..], b, filter);
    }
  }

  /** When every post carries an allowed type (or none), the four type
      filters split the list: their counts add up to the total. */
  lemma {:induction false} TypeFiltersPartition(posts: seq<Post>)
    requires forall i :: 0 <= i < |posts| ==> TypeOrGeneral(posts[i]) in AllowedPostTypes
    ensures |FilterPosts(posts, "general")| + |FilterPosts(posts, "advice")|
          + |FilterPosts(posts, "event")| + |FilterPosts(posts, "alert")| == |posts|
    decreases |posts|
  {
    if |posts| > 0 {
      TypeFiltersPartition(posts[1..]);
    }
  }

  /** `s` is `n` written as `String(n)` writes it: a non-empty run of
      decimal digits with no leading zero, spelling `n`. */
  predicate Spells(s: string, n: nat) {
    |s| > 0 && AllDigits(s) && (s[0] == '0' ==> |s| == 1) && DecimalValue(s) == n
  }

  /** The hint above the list: "N total" under "all", otherwise
      "K of N shown", where K counts the posts the filter keeps and N all
      loaded posts. */
  function FilterHint(posts: seq<Post>, filter: string): (r: string)
    ensures filter == "all" ==>
      exists k :: 0 < k && k + 6 == |r| && Spells(r[..k], |posts|) && r[k..] == " total"
    ensures filter != "all" ==>
      exists k, m :: 0 < k && k + 4 < m && m + 6 == |r|
        && Spells(r[..k], |FilterPosts(posts, filter)|)
        && r[k..k + 4] == " of " && Spells(r[k + 4..m], |posts|) && r[m..] == " shown"
  {
    var total := NatToString(|posts|);
    DecimalRoundTrip(|posts|);
    if filter == "all" then
      TotalHintSplits(total);
      total + " total"
    else
      var kept := NatToString(|FilterPosts(posts, filter)|);
      DecimalRoundTrip(|FilterPosts(posts, filter)|);
      ShownHintSplits(kept, total);
      kept + " of " + total + " shown"
  }

  lemma TotalHintSplits(total: string)
    ensures var r := total + " total";
      r[..|total|] == total && r[|total|..] == " total"
  {
  }

  lemma ShownHintSplits(kept: string, total: string)
    ensures var r := kept + " of " + total + " shown";
      var k, m := |kept|, |kept| + 4 + |total|;
      r[..k] == kept && r[k..k + 4] == " of " && r[k + 4..m] == total && r[m..] == " shown"
  {
  }

  // ------------------------------------------------------ event payload

  datatype Action = Shown | Yes | No | Skip | Upvote | Downvote

  function ActionName(a: Action): string {
    match a
    case Shown => "shown"
    case Yes => "yes"
    case No => "no"
    case Skip => "skip"
    case Upvote => "upvote"
    case Downvote => "downvote"
  }

  /** A row of `suggestion_events`. */
  datatype SuggestionEvent = SuggestionEvent(
    userId: string,
    placeId: string,
    mode: string,
    suggestionType: string,
    suggestionId: Option<string>,
    action: string,
    distanceBand: Option<string>,
    timeBucket: string)

  /** `logSuggestion`'s payload, or nothing at all when nobody is signed in.
      `distance` is the distance select's value ("" when missing) and `hour`
      the clock's hour. */
  function LogPayload(user: Option<string>, placeId: string, mode: string, action: Action,
                      suggestion: Option<Post>, distance: string, hour: int): (r: Option<SuggestionEvent>)
    ensures r.None? <==> user.None?
    ensures r.Some? ==>
      && r.value.userId == user.value
      && r.value.placeId == placeId
      && r.value.suggestionType == "post"
      && r.value.mode != ""
      && (mode != "" ==> r.value.mode == mode)
      && (mode == "" ==> r.value.mode == "idk")
      && r.value.action == ActionName(action)
      && (r.value.suggestionId.Some? <==> suggestion.Some? && HasId(suggestion.value))
      && (r.value.suggestionId.Some? ==> r.value.suggestionId.value == suggestion.value.id)
      && (r.value.distanceBand.Some? <==> distance != "")
      && (r.value.distanceBand.Some? ==> r.value.distanceBand.value == distance)
      && r.value.timeBucket == TimeBucket(hour)
  {
    if user.None? then None
    else
      Some(SuggestionEvent(
        user.value,
        placeId,
        if mode != "" then mode else "idk",
        "post",
        if suggestion.Some? && HasId(suggestion.value) then Some(suggestion.value.id) else None,
        ActionName(action),
        if distance != "" then Some(distance) else None,
        TimeBucket(hour)))
  }

  /** Distinct actions are logged under distinct names. */
  lemma ActionNamesDistinct(a: Action, b: Action)
    requires a != b
    ensures ActionName(a) != ActionName(b)
  {
  }
}

=== FILE: post_model.dfy ===
/** The records the GH-Mind suggestion picker in js/place.js works on. */
module PostModel {
  import opened Wrappers

  /** A post row loaded from the `v_post_scores` view. The text fields are
      only ever read through `x || default`, so "" stands for a null value;
      `score` is read through `??` and may be missing. */
  datatype Post = Post(
    id: string,
    postType: string,
    topic: string,
    title: string,
    body: string,
    score: Option<int>)

  /** The page-level GH-Mind variables: `ghMode` ("" when no mode has been
      chosen), `ghShownIds`, `ghLastTopic` ("" when null) and `ghCurrent`. */
  datatype Session = Session(
    mode: string,
    shown: set<string>,
    lastTopic: string,
    current: Option<Post>)

  /** The page's state before any mode button is clicked. */
  const InitialSession: Session := Session("", {}, "", None)

  /** `p.score ?? 0`, the only ranking signal. */
  function Score(p: Post): int {
    p.score.GetOr(0)
  }

  /** `p.topic || "everyday"`, the topic remembered after a post is shown. */
  function TopicOrEveryday(p: Post): (r: string)
    ensures r != ""
    ensures p.topic != "" ==> r == p.topic
  {
    if p.topic != "" then p.topic else "everyday"
  }

  /** `p?.id` is truthy. */
  predicate HasId(p: Post) {
    p.id != ""
  }
}

=== FILE: ranking.dfy ===
/** The ordering step of `pickNextSuggestion` in js/place.js: a stable sort
    by descending `score ?? 0`, cut to a shortlist of at most eight. */
module Ranking {
  import opened PostModel

  /** How many posts the random pick chooses among. */
  const ShortlistSize: nat := 8

  /** Non-increasing by score. */
  predicate SortedDesc(s: seq<Post>) {
    forall i, j :: 0 <= i < j < |s| ==> Score(s[i]) >= Score(s[j])
  }

  /** Puts `x` in front of the first post that does not outscore it, so that
      posts with equal scores keep their input order. */
  function InsertByScore(x: Post, s: seq<Post>): (r: seq<Post>)
    requires SortedDesc(s)
    ensures SortedDesc(r)
    ensures multiset(r) == multiset(s) + multiset{x}
    decreases |s|
  {
    if |s| == 0 || Score(s[0]) <= Score(x) then
      ConsSortedDesc(x, s);
      [x] + s
    else
      var rest := InsertByScore(x, s[1..]);
      assert forall q :: q in rest ==> Score(q) <= Score(s[0]) by {
        forall q | q in rest
          ensures Score(q) <= Score(s[0])
        {
          assert q in multiset(rest);
          if q != x {
            var k :| 0 <= k < |s[1..]| && s[1..][k] == q;
            assert s[k + 1] == q;
          }
        }
      }
      ConsSortedDesc(s[0], rest);
      assert multiset([s[0]] + rest) == multiset(s) + multiset{x} by {
        assert s == [s[0]] + s[1..];
      }
      [s[0]] + rest
  }

  /** A post scoring at least as much as every post of a sorted list can
      head it. */
  lemma ConsSortedDesc(y: Post, rest: seq<Post>)
    requires SortedDesc(rest)
    requires forall q :: q in rest ==> Score(q) <= Score(y)
    ensures SortedDesc([y] + rest)
  {
    var r := [y] + rest;
    forall i, j | 0 <= i < j < |r|
      ensures Score(r[i]) >= Score(r[j])
    {
      assert r[j] == rest[j - 1];
      assert rest[j - 1] in rest;
      if i > 0 {
        assert r[i] == rest[i - 1];
      }
    }
  }

  /** `candidates.sort((a, b) => (b.score ?? 0) - (a.score ?? 0))`. */
  function SortByScore(s: seq<Post>): (r: seq<Post>)
    ensures SortedDesc(r)
    ensures multiset(r) == multiset(s)
    decreases |s|
  {
    if |s| == 0 then []
    else
      assert s == [s[0]] + s[1..];
      InsertByScore(s[0], SortByScore(s[1..]))
  }

  function Min(a: nat, b: nat): nat {
    if a <= b then a else b
  }

  /** `sorted.slice(0, Math.min(8, sorted.length))`. */
  function Shortlist(sorted: seq<Post>): (r: seq<Post>)
    ensures |r| == Min(ShortlistSize, |sorted|)
    ensures r == sorted[..|r|]
    ensures SortedDesc(sorted) ==>
      forall i, j :: 0 <= i < |r| <= j < |sorted| ==> Score(sorted[i]) >= Score(sorted[j])
  {
    sorted[..Min(ShortlistSize, |sorted|)]
  }

  /** How many posts strictly outscore `v`. */
  function CountAbove(s: seq<Post>, v: int): nat
    decreases |s|
  {
    if |s| == 0 then 0
    else (if Score(s[0]) > v then 1 else 0) + CountAbove(s[1..], v)
  }

  /** Inserting a post adds its own count to the count of the rest. */
  lemma {:induction false} CountAboveInsert(x: Post, s: seq<Post>, v: int)
    requires SortedDesc(s)
    ensures CountAbove(InsertByScore(x, s), v) == CountAbove([x], v) + CountAbove(s, v)
    decreases |s|
  {
    var r := InsertByScore(x, s);
    if |s| == 0 || Score(s[0]) <= Score(x) {
      assert r[1..] == s;
      assert [x][1..] == [];
    } else {
      assert r[1..] == InsertByScore(x, s[1..]);
      CountAboveInsert(x, s[1..], v);
    }
  }

  /** Sorting does not change how many posts outscore a value. */
  lemma {:induction false} CountAboveSort(s: seq<Post>, v: int)
    ensures CountAbove(SortByScore(s), v) == CountAbove(s, v)
    decreases |s|
  {
    if |s| > 0 {
      CountAboveSort(s[1..], v);
      CountAboveInsert(s[0], SortByScore(s[1..]), v);
      assert [s[0]][1..] == [];
    }
  }

  lemma {:induction false} CountAboveNone(s: seq<Post>, v: int)
    requires forall i :: 0 <= i < |s| ==> Score(s[i]) <= v
    ensures CountAbove(s, v) == 0
    decreases |s|
  {
    if |s| > 0 {
      CountAboveNone(s[1..], v);
    }
  }

  /** In a sorted sequence, at most `k` posts outscore the one at index `k`. */
  lemma {:induction false} CountAboveSortedPosition(s: seq<Post>, k: nat)
    requires SortedDesc(s) && k < |s|
    ensures CountAbove(s, Score(s[k])) <= k
    decreases k
  {
    if k == 0 {
      CountAboveNone(s, Score(s[0]));
    } else {
      assert s[1..][k - 1] == s[k];
      CountAboveSortedPosition(s[1..], k - 1);
    }
  }

  /** Any post of the shortlist is outscored by fewer than eight posts of
      the unsorted input: the pick is always a top-eight post. */
  lemma ShortlistIsTopEight(s: seq<Post>, k: nat)
    requires k < |Shortlist(SortByScore(s))|
    ensures CountAbove(s, Score(Shortlist(SortByScore(s))[k])) < ShortlistSize
    ensures Shortlist(SortByScore(s))[k] in s
  {
    var sorted := SortByScore(s);
    CountAboveSortedPosition(sorted, k);
    CountAboveSort(s, Score(sorted[k]));
    assert sorted[k] in multiset(sorted);
  }
}

=== FILE: selector.dfy ===
/** `pickNextSuggestion` from js/place.js. The random index becomes the
    parameter `roll`: any natural number, reduced modulo the shortlist size,
    so every shortlist position can be chosen. */
module Selector {
  import opened Wrappers
  import opened Text
  import opened PostModel
  import opened ModeClassifier
  import opened Ranking

  /** A post the picker may show: it has an id, suits the mode, and has not
      been shown since the mode was chosen. */
  predicate IsEligible(p: Post, mode: string, shown: set<string>) {
    HasId(p) && MatchesMode(p, mode) && p.id !in shown
  }

  /** No post in the list is eligible. */
  predicate NoneEligible(posts: seq<Post>, mode: string, shown: set<string>) {
    forall p :: p in posts ==> !IsEligible(p, mode, shown)
  }

  /** The three chained `filter` calls, in list order. */
  function Eligible(posts: seq<Post>, mode: string, shown: set<string>): (r: seq<Post>)
    ensures forall p :: p in r <==> p in posts && IsEligible(p, mode, shown)
    ensures |r| <= |posts|
    decreases |posts|
  {
    if |posts| == 0 then []
    else
      var rest := Eligible(posts[1..], mode, shown);
      assert posts == [posts[0]] + posts[1..];
      if IsEligible(posts[0], mode, shown) then [posts[0]] + rest else rest
  }

  /** The chained filters keep the posts' order and multiplicity: they
      distribute over concatenation. */
  lemma {:induction false} EligibleAppend(a: seq<Post>, b: seq<Post>, mode: string, shown: set<string>)
    ensures Eligible(a + b, mode, shown) == Eligible(a, mode, shown) + Eligible(b, mode, shown)
    decreases |a|
  {
    if |a| == 0 {
      assert a + b == b;
    } else {
      assert (a + b)[0] == a[0];
      assert (a + b)[1..] == a[1..] + b;
      EligibleAppend(a[1..], b, mode, shown);
    }
  }

  /** The posts whose topic (default "everyday") differs from `lastTopic`. */
  function OtherTopics(s: seq<Post>, lastTopic: string): (r: seq<Post>)
    ensures forall p :: p in r <==> p in s && TopicOrEveryday(p) != lastTopic
    decreases |s|
  {
    if |s| == 0 then []
    else
      var rest := OtherTopics(s[1..], lastTopic);
      assert s == [s[0]] + s[1..];
      if TopicOrEveryday(s[0]) != lastTopic then [s[0]] + rest else rest
  }

  /** The topic filter also keeps order and multiplicity. */
  lemma {:induction false} OtherTopicsAppend(a: seq<Post>, b: seq<Post>, lastTopic: string)
    ensures OtherTopics(a + b, lastTopic) == OtherTopics(a, lastTopic) + OtherTopics(b, lastTopic)
    decreases |a|
  {
    if |a| == 0 {
      assert a + b == b;
    } else {
      assert (a + b)[0] == a[0];
      assert (a + b)[1..] == a[1..] + b;
      OtherTopicsAppend(a[1..], b, lastTopic);
    }
  }

  /** The topic-diversity rule applies only in mode "idk" once a topic has
      been shown. */
  predicate Diversifies(mode: string, lastTopic: string) {
    mode == "idk" && lastTopic != ""
  }

  /** The pool the ranking sees: the eligible posts, narrowed to other topics
      when the diversity rule applies and that leaves something. */
  function Candidates(posts: seq<Post>, s: Session): (r: seq<Post>)
    ensures forall p :: p in r ==> p in posts && IsEligible(p, s.mode, s.shown)
    ensures |r| == 0 <==> forall p :: p in posts ==> !IsEligible(p, s.mode, s.shown)
    ensures Diversifies(s.mode, s.lastTopic)
      && (exists p :: p in posts && IsEligible(p, s.mode, s.shown) && TopicOrEveryday(p) != s.lastTopic)
      ==> forall p :: p in r ==> TopicOrEveryday(p) != s.lastTopic
    ensures !Diversifies(s.mode, s.lastTopic) ==>
      forall p :: p in r <==> p in posts && IsEligible(p, s.mode, s.shown)
    ensures Diversifies(s.mode, s.lastTopic)
      && (exists p :: p in posts && IsEligible(p, s.mode, s.shown) && TopicOrEveryday(p) != s.lastTopic)
      ==> forall p :: p in r <==> p in posts && IsEligible(p, s.mode, s.shown) && TopicOrEveryday(p) != s.lastTopic
    ensures Diversifies(s.mode, s.lastTopic)
      && (forall p :: p in posts && IsEligible(p, s.mode, s.shown) ==> TopicOrEveryday(p) == s.lastTopic)
      ==> forall p :: p in r <==> p in posts && IsEligible(p, s.mode, s.shown)
  {
    var eligible := Eligible(posts, s.mode, s.shown);
    if Diversifies(s.mode, s.lastTopic) then
      var alt := OtherTopics(eligible, s.lastTopic);
      if |alt| > 0 then
        assert alt[0] in alt;
        alt
      else
        assert forall p :: p in eligible ==> TopicOrEveryday(p) == s.lastTopic;
        assert |eligible| > 0 ==> eligible[0] in eligible;
        eligible
    else
      assert |eligible| > 0 ==> eligible[0] in eligible;
      eligible
  }

  /** The top posts by score that the random pick chooses among. */
  function Top(posts: seq<Post>, s: Session): (r: seq<Post>)
    ensures |r| <= ShortlistSize
    ensures |r| == 0 <==> |Candidates(posts, s)| == 0
  {
    Shortlist(SortByScore(Candidates(posts, s)))
  }

  /** `top[Math.floor(Math.random() * top.length)]`, or `null` when no
      candidate is left. */
  function Pick(posts: seq<Post>, s: Session, roll: nat): (r: Option<Post>)
    ensures r.None? <==> forall p :: p in posts ==> !IsEligible(p, s.mode, s.shown)
    ensures r.Some? ==> r.value in posts && IsEligible(r.value, s.mode, s.shown)
    ensures r.Some? ==> r.value in Top(posts, s)
    ensures r.Some? ==> CountAbove(Candidates(posts, s), Score(r.value)) < ShortlistSize
    ensures r.Some? && Diversifies(s.mode, s.lastTopic)
      && (exists p :: p in posts && IsEligible(p, s.mode, s.shown) && TopicOrEveryday(p) != s.lastTopic)
      ==> TopicOrEveryday(r.value) != s.lastTopic
  {
    var top := Top(posts, s);
    if |top| == 0 then None
    else
      ShortlistIsTopEight(Candidates(posts, s), RollIndex(roll, |top|));
      Some(top[RollIndex(roll, |top|)])
  }

  /** `Math.floor(Math.random() * n)` for a roll standing in for the random
      number: an index below `n`, and any index below `n` can come out. */
  function RollIndex(roll: nat, n: nat): (k: nat)
    requires n > 0
    ensures k < n
    ensures roll < n ==> k == roll
  {
    roll % n
  }

  /** The random pick can land on every shortlist position. */
  lemma EveryShortlistPostReachable(posts: seq<Post>, s: Session, k: nat)
    requires k < |Top(posts, s)|
    ensures Pick(posts, s, k) == Some(Top(posts, s)[k])
  {
    var top := Top(posts, s);
    assert RollIndex(k, |top|) == k;
  }

  /** No post outside the shortlist outscores a post in it. */
  lemma TopDominatesRest(posts: seq<Post>, s: Session)
    ensures var sorted := SortByScore(Candidates(posts, s));
      forall i, j :: 0 <= i < |Top(posts, s)| <= j < |sorted| ==>
        Score(sorted[j]) <= Score(Top(posts, s)[i])
  {
    var sorted := SortByScore(Candidates(posts, s));
    assert Top(posts, s) == Shortlist(sorted);
  }

  /** The worked example of a hungry user: a food post and a higher-scored
      history post; only the food post qualifies, so it is picked whatever
      the roll. */
  lemma HungryExample(food: Post, hist: Post, roll: nat)
    requires HasId(food) && HasId(hist)
    requires NormalTopic(food) == "food_drink" && NormalTopic(hist) == "history"
    requires Score(hist) > Score(food)
    ensures Pick([food, hist], Session("hungry", {}, "", None), roll) == Some(food)
  {
    var s := Session("hungry", {}, "", None);
    assert IsEligible(food, s.mode, s.shown);
    assert !IsEligible(hist, s.mode, s.shown);
    assert food in [food, hist];
  }

  /** The worked example of an undecided user who just saw an event: the
      lower-scored history post wins because its topic differs. */
  lemma DiversityExample(ev: Post, hist: Post, roll: nat)
    requires HasId(ev) && HasId(hist)
    requires ev.topic == "events" && hist.topic == "history"
    requires Score(ev) > Score(hist)
    ensures Pick([ev, hist], Session("idk", {}, "events", None), roll) == Some(hist)
  {
    var s := Session("idk", {}, "events", None);
    assert IsEligible(hist, s.mode, s.shown) && TopicOrEveryday(hist) != s.lastTopic;
    assert hist in [ev, hist];
    assert TopicOrEveryday(ev) == s.lastTopic;
  }
}

=== FILE: suggestion_session.dfy ===
/** The GH-Mind session in js/place.js: the handlers that change `ghMode`,
    `ghShownIds`, `ghLastTopic` and `ghCurrent`, and the anti-repeat
    guarantee they give between two mode switches. Each event carries the
    post list the handler sees (the page reloads it from the server) and the
    roll standing in for the random pick. */
module SuggestionSession {
  import opened Wrappers
  import opened PostModel
  import opened ModeClassifier
  import opened Selector

  /** A handler's effect: the new session and the post it newly displays. */
  datatype Outcome = Outcome(session: Session, displayed: Option<Post>)

  /** `showNextSuggestion`: nothing happens before a mode is chosen; an
      empty pick clears the current suggestion; a pick is remembered. */
  function ShowNext(s: Session, posts: seq<Post>, roll: nat): (o: Outcome)
    ensures s.mode == "" ==> o == Outcome(s, None)
    ensures s.mode != "" ==> o.displayed == Pick(posts, s, roll)
    ensures s.mode != "" ==>
      (o.displayed.None? <==> NoneEligible(posts, s.mode, s.shown))
    ensures o.displayed.Some? ==>
      && o.displayed.value in posts
      && IsEligible(o.displayed.value, s.mode, s.shown)
      && o.session == Session(s.mode, s.shown + {o.displayed.value.id},
                              TopicOrEveryday(o.displayed.value), o.displayed)
    ensures o.displayed.None? && s.mode != "" ==> o.session == s.(current := None)
  {
    if s.mode == "" then Outcome(s, None)
    else
      match Pick(posts, s, roll)
      case None => Outcome(s.(current := None), None)
      case Some(p) =>
        Outcome(Session(s.mode, s.shown + {p.id}, TopicOrEveryday(p), Some(p)), Some(p))
  }

  datatype Answer = Yes | No | Skip

  datatype Event =
    /** A mode button: set the mode, forget what was shown, show one. */
    | ChooseMode(mode: string, posts: seq<Post>, roll: nat)
    /** Yes, No or Skip on the current suggestion. */
    | Respond(answer: Answer, posts: seq<Post>, roll: nat)
    /** Thumbs up or down on the current suggestion. */
    | Thumb(up: bool, posts: seq<Post>, roll: nat)
    /** A sign-in change or a new post: show the next suggestion. */
    | Reload(posts: seq<Post>, roll: nat)

  function Step(s: Session, e: Event): (o: Outcome)
    ensures e.ChooseMode? ==> o.session.mode == e.mode
    ensures e.ChooseMode? && o.displayed.None? ==> o.session.shown == {} && o.session.lastTopic == ""
    ensures e.ChooseMode? && o.displayed.Some? ==>
      o.session.shown == {o.displayed.value.id} && o.session.lastTopic == TopicOrEveryday(o.displayed.value)
    ensures !e.ChooseMode? ==> o.session.mode == s.mode && s.shown <= o.session.shown
    ensures !e.ChooseMode? && o.displayed.Some? ==>
      o.displayed.value.id !in s.shown && o.displayed.value.id in o.session.shown
    ensures (e.Respond? || e.Thumb?) && s.current.None? ==> o == Outcome(s, None)
    ensures e.Thumb? && s.current.Some? ==> s.current.value.id in o.session.shown
    ensures o.displayed.Some? ==>
      o.session.current == o.displayed && o.session.lastTopic == TopicOrEveryday(o.displayed.value)
    ensures e.ChooseMode? && e.mode != "" ==>
      (o.displayed.None? <==> NoneEligible(e.posts, e.mode, {}))
    ensures (e.Reload? || (e.Respond? && s.current.Some?)) && s.mode != "" ==>
      (o.displayed.None? <==> NoneEligible(e.posts, s.mode, s.shown))
    ensures e.Thumb? && s.current.Some? && s.mode != "" ==>
      (o.displayed.None? <==> NoneEligible(e.posts, s.mode, s.shown + {s.current.value.id}))
    ensures e.ChooseMode? && e.mode != "" ==>
      o.displayed == Pick(e.posts, Session(e.mode, {}, "", s.current), e.roll)
    ensures (e.Reload? || (e.Respond? && s.current.Some?)) && s.mode != "" ==>
      o.displayed == Pick(e.posts, s, e.roll)
    ensures e.Thumb? && s.current.Some? && s.mode != "" ==>
      o.displayed == Pick(e.posts, s.(shown := s.shown + {s.current.value.id}), e.roll)
    ensures o.displayed.Some? ==>
      o.displayed.value in e.posts && MatchesMode(o.displayed.value, o.session.mode)
    ensures o.displayed.None? && e.ChooseMode? && e.mode != "" ==> o.session.current.None?
    ensures o.displayed.None? && !e.ChooseMode? && s.mode != "" && (e.Reload? || s.current.Some?) ==>
      o.session.current.None?
  {
    match e
    case ChooseMode(m, posts, roll) => ShowNext(Session(m, {}, "", s.current), posts, roll)
    case Respond(_, posts, roll) =>
      if s.current.None? then Outcome(s, None) else ShowNext(s, posts, roll)
    case Thumb(_, posts, roll) =>
      if s.current.None? then Outcome(s, None)
      else ShowNext(s.(shown := s.shown + {s.current.value.id}), posts, roll)
    case Reload(posts, roll) => ShowNext(s, posts, roll)
  }

  /** The session after a sequence of events and the posts displayed along
      the way, in order. */
  datatype Trace = Trace(session: Session, displayed: seq<Post>)

  function Run(s: Session, events: seq<Event>): Trace
    decreases |events|
  {
    if |events| == 0 then Trace(s, [])
    else
      var o := Step(s, events[0]);
      var t := Run(o.session, events[1..]);
      match o.displayed
      case None => t
      case Some(p) => Trace(t.session, [p] + t.displayed)
  }

  predicate NoModeSwitch(events: seq<Event>) {
    forall i :: 0 <= i < |events| ==> !events[i].ChooseMode?
  }

  /** Every post of `ds` has an id, suits `mode`, is outside `before` and
      inside `after`. */
  predicate FreshUnder(ds: seq<Post>, mode: string, before: set<string>, after: set<string>) {
    forall i :: 0 <= i < |ds| ==>
      && HasId(ds[i])
      && MatchesMode(ds[i], mode)
      && ds[i].id !in before
      && ds[i].id in after
  }

  /** Within one mode every displayed post has an id, suits the mode, was
      not shown before, and is remembered. */
  lemma {:induction false} RunWithinMode(s: Session, events: seq<Event>)
    requires NoModeSwitch(events)
    ensures var t := Run(s, events);
      && t.session.mode == s.mode
      && s.shown <= t.session.shown
      && FreshUnder(t.displayed, s.mode, s.shown, t.session.shown)
    decreases |events|
  {
    if |events| > 0 {
      var o := Step(s, events[0]);
      NoModeSwitchTail(events);
      RunWithinMode(o.session, events[1..]);
      var t := Run(o.session, events[1..]);
      if o.displayed.Some? {
        StepShowsEligible(s, events[0]);
        FreshPrepend(o.displayed.value, t.displayed, s.mode, s.shown, o.session.shown, t.session.shown);
        assert Run(s, events) == Trace(t.session, [o.displayed.value] + t.displayed);
      } else {
        assert Run(s, events) == t;
      }
    }
  }

  /** A post eligible before a step and remembered by it can head the posts
      displayed afterwards. */
  lemma FreshPrepend(p: Post, ds: seq<Post>, mode: string, before: set<string>, mid: set<string>, after: set<string>)
    requires IsEligible(p, mode, before) && p.id in mid
    requires before <= mid <= after
    requires FreshUnder(ds, mode, mid, after)
    ensures FreshUnder([p] + ds, mode, before, after)
  {
    forall i | 0 <= i < |[p] + ds|
      ensures ([p] + ds)[i] == if i == 0 then p else ds[i - 1]
    {
    }
  }

  /** Within one mode no post id is displayed twice, on top of the facts
      above. */
  lemma {:induction false} NoRepeatWithinMode(s: Session, events: seq<Event>)
    requires NoModeSwitch(events)
    ensures var t := Run(s, events);
      && t.session.mode == s.mode
      && s.shown <= t.session.shown
      && (forall i :: 0 <= i < |t.displayed| ==>
            && HasId(t.displayed[i])
            && MatchesMode(t.displayed[i], s.mode)
            && t.displayed[i].id !in s.shown
            && t.displayed[i].id in t.session.shown)
      && (forall i, j :: 0 <= i < j < |t.displayed| ==> t.displayed[i].id != t.displayed[j].id)
    decreases |events|
  {
    RunWithinMode(s, events);
    if |events| > 0 {
      var o := Step(s, events[0]);
      NoModeSwitchTail(events);
      NoRepeatWithinMode(o.session, events[1..]);
      var t := Run(o.session, events[1..]);
      if o.displayed.Some? {
        var p := o.displayed.value;
        PrependFresh(p, t.displayed, o.session.shown);
        assert Run(s, events) == Trace(t.session, [p] + t.displayed);
      } else {
        assert Run(s, events) == t;
      }
    }
  }

  /** A handler other than a mode button only shows a post eligible under
      the session it started from. */
  lemma StepShowsEligible(s: Session, e: Event)
    requires !e.ChooseMode?
    ensures Step(s, e).displayed.Some? ==> IsEligible(Step(s, e).displayed.value, s.mode, s.shown)
  {
    match e
    case Respond(_, posts, roll) =>
    case Thumb(_, posts, roll) =>
    case Reload(posts, roll) =>
  }

  /** Dropping the first event keeps a mode-free sequence mode-free. */
  lemma NoModeSwitchTail(events: seq<Event>)
    requires |events| > 0 && NoModeSwitch(events)
    ensures NoModeSwitch(events[1..])
  {
    forall i | 0 <= i < |events[1..]|
      ensures !events[1..][i].ChooseMode?
    {
      assert events[1..][i] == events[i + 1];
    }
  }

  /** A post whose id is in `shown` can head a list of distinct ids that
      avoid `shown`. */
  lemma PrependFresh(p: Post, ds: seq<Post>, shown: set<string>)
    requires p.id in shown
    requires forall i :: 0 <= i < |ds| ==> ds[i].id !in shown
    requires forall i, j :: 0 <= i < j < |ds| ==> ds[i].id != ds[j].id
    ensures forall i, j :: 0 <= i < j < |[p] + ds| ==> ([p] + ds)[i].id != ([p] + ds)[j].id
  {
    var r := [p] + ds;
    forall i, j | 0 <= i < j < |r|
      ensures r[i].id != r[j].id
    {
      assert r[j] == ds[j - 1];
      if i > 0 {
        assert r[i] == ds[i - 1];
      }
    }
  }

  /** Between a mode switch and the next one, no post id is displayed twice,
      and every displayed post suits the chosen mode. */
  lemma NoRepeatAfterModeSwitch(s: Session, m: string, posts: seq<Post>, roll: nat, events: seq<Event>)
    requires NoModeSwitch(events)
    ensures var t := Run(s, [ChooseMode(m, posts, roll)] + events);
      && (forall i :: 0 <= i < |t.displayed| ==> MatchesMode(t.displayed[i], m))
      && (forall i, j :: 0 <= i < j < |t.displayed| ==> t.displayed[i].id != t.displayed[j].id)
  {
    var all := [ChooseMode(m, posts, roll)] + events;
    assert all[0] == ChooseMode(m, posts, roll) && all[1..] == events;
    var o := Step(s, all[0]);
    NoRepeatWithinMode(o.session, events);
    var t := Run(o.session, events);
    if o.displayed.Some? {
      var p := o.displayed.value;
      ModeButtonShowsEligible(s, m, posts, roll);
      PrependFresh(p, t.displayed, o.session.shown);
      assert Run(s, all) == Trace(t.session, [p] + t.displayed);
    } else {
      assert Run(s, all) == t;
    }
  }

  /** A mode button only shows a post eligible under the new mode. */
  lemma ModeButtonShowsEligible(s: Session, m: string, posts: seq<Post>, roll: nat)
    ensures var o := Step(s, ChooseMode(m, posts, roll));
      o.session.mode == m && (o.displayed.Some? ==> IsEligible(o.displayed.value, m, {}))
  {
  }

  /** Before the first mode button, no handler displays anything. */
  lemma {:induction false} NothingBeforeModeChosen(events: seq<Event>)
    requires NoModeSwitch(events)
    ensures Run(InitialSession, events) == Trace(InitialSession, [])
    decreases |events|
  {
    if |events| > 0 {
      assert Step(InitialSession, events[0]) == Outcome(InitialSession, None);
      NoModeSwitchTail(events);
      NothingBeforeModeChosen(events[1..]);
    }
  }

  /** The current suggestion, if any, is always among the shown ids. */
  predicate CurrentWasShown(s: Session) {
    s.current.Some? ==> s.current.value.id in s.shown
  }

  /** Every handler keeps that invariant, except a mode button whose
      `data-mode` is empty: it clears `ghShownIds` but, finding no mode,
      leaves `ghCurrent` in place. */
  lemma StepKeepsCurrentShown(s: Session, e: Event)
    requires CurrentWasShown(s)
    requires e.ChooseMode? ==> e.mode != ""
    ensures CurrentWasShown(Step(s, e).session)
  {
  }

  lemma EmptyModeButtonBreaksInvariant()
    ensures var p := Post("1", "general", "", "", "", None);
      var s := Session("idk", {"1"}, "everyday", Some(p));
      CurrentWasShown(s) && !CurrentWasShown(Step(s, ChooseMode("", [p], 0)).session)
  {
  }

  /** So the thumbs handlers' extra `ghShownIds.add(ghCurrent.id)` changes
      nothing: a thumb moves on exactly like Yes, No or Skip. */
  lemma ThumbMovesOnLikeAnswer(s: Session, up: bool, a: Answer, posts: seq<Post>, roll: nat)
    requires CurrentWasShown(s)
    ensures Step(s, Thumb(up, posts, roll)) == Step(s, Respond(a, posts, roll))
  {
    if s.current.Some? {
      assert s.shown + {s.current.value.id} == s.shown;
      assert s.(shown := s.shown + {s.current.value.id}) == s;
    }
  }
}

=== FILE: text.dfy ===
/** Character and string helpers shared by the page scripts: JavaScript `trim`,
    ASCII lower-casing, substring search (`includes`), the lexicographic order
    on characters standing in for `<`/`>` on strings, and the decimal rendering of counts (`String(n)`). */
module Text {

  /** The code points JavaScript's `String.prototype.trim` removes: the
      ECMAScript WhiteSpace and LineTerminator characters. */
  predicate IsSpace(c: char) {
    || c == '\t' || c == '\n' || c == '\U{000B}' || c == '\U{000C}' || c == '\r'
    || c == ' ' || c == '\U{00A0}' || c == '\U{1680}'
    || ('\U{2000}' <= c <= '\U{200A}')
    || c == '\U{2028}' || c == '\U{2029}' || c == '\U{202F}' || c == '\U{205F}'
    || c == '\U{3000}' || c == '\U{FEFF}'
  }

  /** No leading or trailing white space. */
  predicate IsTrimmed(s: string) {
    |s| == 0 || (!IsSpace(s[0]) && !IsSpace(s[|s| - 1]))
  }

  function TrimStart(s: string): (r: string)
    ensures |r| <= |s| && r == s[|s| - |r|..]
    ensures |r| > 0 ==> !IsSpace(r[0])
    ensures forall i :: 0 <= i < |s| - |r| ==> IsSpace(s[i])
    decreases |s|
  {
    if |s| > 0 && IsSpace(s[0]) then TrimStart(s[1..]) else s
  }

  function TrimEnd(s: string): (r: string)
    ensures |r| <= |s| && r == s[..|r|]
    ensures |r| > 0 ==> !IsSpace(r[|r| - 1])
    ensures forall i :: |r| <= i < |s| ==> IsSpace(s[i])
    decreases |s|
  {
    if |s| > 0 && IsSpace(s[|s| - 1]) then TrimEnd(s[..|s| - 1]) else s
  }

  /** `s.trim()`: white space removed from both ends. */
  function Trim(s: string): (r: string)
    ensures IsTrimmed(r)
    ensures |r| <= |s|
    ensures r == "" <==> forall i :: 0 <= i < |s| ==> IsSpace(s[i])
    ensures IsTrimmed(s) ==> r == s
  {
    var t := TrimStart(s);
    var r := TrimEnd(t);
    assert |r| > 0 ==> r[0] == t[0];
    assert |t| > 0 ==> |r| > 0 by {
      if |t| > 0 && |r| == 0 {
        assert false;
      }
    }
    assert |t| > 0 ==> !IsSpace(s[|s| - |t|]);
    r
  }

  function LowerChar(c: char): (r: char)
    ensures !('A' <= r <= 'Z')
  {
    if 'A' <= c <= 'Z' then (c as int + 32) as char else c
  }

  /** `s.toLowerCase()` restricted to ASCII letters. */
  function Lower(s: string): (r: string)
    ensures |r| == |s|
    decreases |s|
  {
    if |s| == 0 then "" else [LowerChar(s[0])] + Lower(s[1..])
  }

  /** Lower-casing works character by character. */
  lemma {:induction false} LowerAt(s: string)
    ensures forall i :: 0 <= i < |s| ==> Lower(s)[i] == LowerChar(s[i])
    decreases |s|
  {
    if |s| > 0 {
      LowerAt(s[1..]);
    }
  }

  lemma ConcatPrefix(x: string, y: string)
    requires |y| > 0
    ensures (x + y)[..|x|] == x && (x + y)[|x|] == y[0]
  {
  }

  /** A prefix of a string agrees with it up to every shorter length. */
  lemma PrefixAgrees(a: string, n: string, k: nat)
    requires |n| <= |a| && a[..|n|] == n && k < |n|
    ensures a[..k] == n[..k] && a[k] == n[k]
  {
    assert a[k] == a[..|n|][k];
  }

  /** A string without capitals is its own lower case. */
  lemma LowerOfLowercase(s: string)
    requires forall i :: 0 <= i < |s| ==> !('A' <= s[i] <= 'Z')
    ensures Lower(s) == s
  {
    LowerAt(s);
  }

  lemma LowerIdempotent(s: string)
    ensures Lower(Lower(s)) == Lower(s)
  {
    LowerAt(s);
    LowerAt(Lower(s));
  }

  /** `w` occurs in `s` starting at position `i`. */
  predicate OccursAt(s: string, w: string, i: nat) {
    i + |w| <= |s| && s[i..i + |w|] == w
  }

  /** `s.includes(w)`. */
  predicate Contains(s: string, w: string) {
    exists i: nat | i <= |s| :: OccursAt(s, w, i)
  }

  /** `a < b` on JavaScript strings: the first differing character decides, and
      a proper prefix is smaller. */
  predicate LexLess(a: string, b: string)
    decreases |a|
  {
    if |a| == 0 then |b| > 0
    else if |b| == 0 then false
    else if a[0] != b[0] then a[0] < b[0]
    else LexLess(a[1..], b[1..])
  }

  lemma {:induction false} LexLessIrreflexive(a: string)
    ensures !LexLess(a, a)
    decreases |a|
  {
    if |a| > 0 {
      LexLessIrreflexive(a[1..]);
    }
  }

  lemma {:induction false} LexLessTransitive(a: string, b: string, c: string)
    requires LexLess(a, b) && LexLess(b, c)
    ensures LexLess(a, c)
    decreases |a|
  {
    if |a| > 0 && a[0] == b[0] && b[0] == c[0] {
      LexLessTransitive(a[1..], b[1..], c[1..]);
    }
  }

  lemma {:induction false} LexLessTotal(a: string, b: string)
    requires a != b
    ensures LexLess(a, b) || LexLess(b, a)
    decreases |a|
  {
    if |a| > 0 && |b| > 0 && a[0] == b[0] {
      assert a == [a[0]] + a[1..] && b == [b[0]] + b[1..];
      LexLessTotal(a[1..], b[1..]);
    }
  }

  /** When two strings first differ at position `k`, that position decides the
      order, whatever follows. */
  lemma {:induction false} LexLessAtFirstDifference(a: string, b: string, k: nat)
    requires k < |a| && k < |b| && a[..k] == b[..k] && a[k] != b[k]
    ensures LexLess(a, b) <==> a[k] < b[k]
    decreases k
  {
    if k > 0 {
      assert a[0] == a[..k][0] == b[..k][0] == b[0];
      assert a[1..][..k - 1] == a[1..k] == a[..k][1..];
      assert b[1..][..k - 1] == b[1..k] == b[..k][1..];
      LexLessAtFirstDifference(a[1..], b[1..], k - 1);
    }
  }

  function DigitChar(d: nat): (c: char)
    requires d < 10
    ensures '0' <= c <= '9'
  {
    ('0' as int + d) as char
  }

  predicate AllDigits(s: string) {
    forall i :: 0 <= i < |s| ==> '0' <= s[i] <= '9'
  }

  /** `String(n)` for a non-negative integer: its decimal digits without
      leading zeros. */
  function NatToString(n: nat): (r: string)
    ensures |r| > 0 && AllDigits(r)
    ensures r[0] == '0' ==> n == 0 && |r| == 1
    decreases n
  {
    if n < 10 then [DigitChar(n)] else NatToString(n / 10) + [DigitChar(n % 10)]
  }

  /** The number a string of decimal digits denotes. */
  function DecimalValue(s: string): nat
    requires AllDigits(s)
    decreases |s|
  {
    if |s| == 0 then 0
    else DecimalValue(s[..|s| - 1]) * 10 + (s[|s| - 1] as int - '0' as int)
  }

  lemma {:induction false} DecimalRoundTrip(n: nat)
    ensures DecimalValue(NatToString(n)) == n
    decreases n
  {
    if n >= 10 {
      var r := NatToString(n);
      assert r[..|r| - 1] == NatToString(n / 10);
      DecimalRoundTrip(n / 10);
    }
  }
}

=== FILE: wrappers.dfy ===
/** Optional values and success-or-error results, used where the scripts read
    `null`/`undefined` or stop early with a message. */
module Wrappers {

  datatype Option<+T> = None | Some(value: T) {

    /** The wrapped value, or `default` when there is none (JavaScript `??`). */
    function GetOr(default: T): T {
      match this
      case Some(v) => v
      case None => default
    }
  }

  datatype Result<+R, +E> = Success(value: R) | Failure(error: E)
}
